=== FILE: README.md ===
# Ray tracer: segment-list CSG algebra and scene-graph traversal

This project models two parts of a C++ ray tracer in Dafny and proves properties of them.

**The segment-list algebra.** A `SegmentList` stores the "inside" spans of a ray as `(start, end)` pairs of intersection points. Each point carries a ray parameter `t`, a surface normal and an owning geometry node. The list supports:
- appending one segment or a whole list;
- pairwise interval intersection;
- interval subtraction that flips the subtrahend's normals;
- the nearest boundary beyond an offset;
- sorted filtering;
- re-mapping of the normals.

**The scene graph and its shading skeleton.** A node holds a transform, its cached inverse and an ordered list of children. A geometry node also holds a primitive and a material. The model covers:
- the recursive nearest-hit fold over the tree, which threads a shrinking `minT`;
- the three public `intersect` overloads;
- the mirror-reflection recursion in `getColour`, capped at depth 5;
- the per-light loop in `getLightContribution`, with its shadow skip and its filter on negative contributions.

## How the model is built

Every operation is a pure function.
- A segment list is a `seq<Segment>`, where `Segment` is a datatype.
- The tree is an inductive `Node` datatype whose children are a `seq<Node>`.
- Operations that mutate in place return the new value instead. `SegmentList::remove` mutates both of its operands, so `SegmentLists.Remove` returns both lists.

Ray parameters, coordinates and colour channels are exact reals.

The floating-point work the code delegates is not reproduced. These operations are fields of a `Materials.Library` record, passed as a parameter:
- each primitive's root finding, which yields candidate `(t, normal)` pairs along an object-space ray;
- `Matrix4x4::invert`;
- `cos` and `sin` of an angle in degrees;
- `normalize` and `length`;
- `Material::getCoefficient`, which uses `pow`;
- `1 / x`.

Each primitive's candidate list is taken to depend only on the primitive and the object-space ray, not on the incoming `minT`. That holds for the spheres and boxes, whose hit tests (src/primitive.cpp:12-24, 30-65 and 97-118) compute their candidates from the ray alone. For cones and cylinders it is assumed, not checked (see "Left out"). The polygonal mesh, whose test depends on `minT`, is left out as well. Beyond these parameters and that assumption, nothing is assumed. In particular, the primitive hit test is proved, not assumed. The shared loop of src/primitive.cpp keeps a candidate only when it lies in `(offset, minT)`. The model proves the contract of that loop over any candidate list: on a hit, `minT` drops to such a candidate; on a miss, `minT` and the normal are untouched.

Modules, one per file:
- `Algebra` (algebra.dfy): vectors, points, colours and 4x4 matrices.
- `Segments` (segment.dfy): intersection points and segments.
- `SegmentSort` (segmentsort.dfy): `std::list::sort` on segments.
- `SegmentLists` (segmentlist.dfy): the list operations.
- `Primitives` (primitive.dfy): the primitive hit-test loop.
- `Options` (options.dfy): the `Option` type used for "which node was hit".
- `Materials` (material.dfy): materials, lights and the library record.
- `SceneNodes` (scenenode.dfy): the tree, its editing operations and the traversal.
- `Shading` (shading.dfy): `getColour`, `getLightContribution` and the colour overload of `intersect`.

### Behaviour of the code that the model keeps

- A single mirror-reflection weight blends the reflected colour in; there is no refraction or transparency.
- At the depth cap no reflection term is added; the result is not black. The ambient term and the light term weighted by `1 - reflection` are still returned (`Shading.GetColour`).
- A shadow ray that hits anything, at any distance, blocks the light. That includes an occluder beyond the light (`Shading.ShadowIgnoresLightDistance`).
- Unions are plain concatenation: inserting an equal, distinct list into `A` does not give back `A`.
- `remove` is not set difference (`SegmentLists.RemoveIsNotSetDifference`).

## Model

| member | source | states |
|---|---|---|
| Algebra.Translation | src/transforms.cpp:39-49 | the displacement matrix moves every point by the displacement and leaves every direction vector unchanged |
| Algebra.Scaling | src/transforms.cpp:52-62 | the scale matrix multiplies each coordinate of a point or vector by its own factor |
| Algebra.Rotation | src/transforms.cpp:10-36 | rotating about z (either case) sends a point to `(cos x - sin y, sin x + cos y, z)`, about x to `(x, cos y - sin z, sin y + cos z)`, and about y to `(cos x + sin z, y, cos z - sin x)`; any other axis letter gives the default matrix, which leaves points fixed |
| Segments.Later | src/segmentlist.cpp:35 | `std::max` on intersection points returns one of its arguments, no earlier than either; on equal `t` it returns the first argument |
| Segments.Earlier | src/segmentlist.cpp:36 | `std::min` returns one of its arguments, no later than either; on equal `t` it returns the first argument |
| Segments.Segment.Less | src/segmentlist.hpp:14-19 | `operator<` holds exactly when the other segment is not key-no-later, so it is the strict part of the (start, end) key order |
| Segments.Meet | src/segmentlist.cpp:34-36 | the overlap built for a pair starts no earlier than either start and ends no later than either end |
| Segments.Segment.FlipNormals | src/segmentlist.hpp:24-27 | both endpoint normals are negated, and the parameters and owners stay as they were |
| Segments.LessIsLexicographic | src/segmentlist.hpp:14-19 | `operator<` on segments is exactly strict lexicographic order on (`start()`, `end()`) |
| Segments.LessIsStrictWeakOrder | src/segmentlist.hpp:14-19 | `operator<` is irreflexive and transitive, and incomparability is transitive, as `list::sort` needs |
| Segments.FlipNormalsInvolution | src/segmentlist.hpp:24-27 | `flipNormals` keeps both `t` values and both owners, and applying it twice restores the segment |
| Segments.OverlapsIgnoresNormals | src/segmentlist.cpp:56 | the strict overlap test is symmetric and unaffected by flipping either segment's normals |
| Segments.MeetOfOverlapping | src/segmentlist.cpp:34-36 | for overlapping segments, (later start, earlier end) lies within both; its endpoints come from the two inputs; it is well-formed, or of positive length, when both inputs are |
| Segments.SelfOverlap | src/segmentlist.cpp:34 | a segment overlaps itself exactly when it has positive length, and its meet with itself is itself |
| Segments.ZeroLengthOverlaps | src/segmentlist.cpp:34 | a zero-length segment overlaps a segment exactly when that segment holds its point strictly inside |
| SegmentSort.InsertSorted | src/segmentlist.cpp:101 | inserting into a sorted list gives a sorted list with the same elements plus the new one |
| SegmentSort.Sort | src/segmentlist.cpp:101 | `list::sort` yields a permutation of its input, ordered by `Segment::operator<` |
| SegmentSort.SortStable | src/segmentlist.cpp:101 | `list::sort` is stable: for every (start, end) key, the segments with that key keep their input order |
| SegmentSort.InsertSortedStable | src/segmentlist.cpp:101 | inserting a segment keeps the subsequence of every other key and places the segment after the ones sharing its key |
| SegmentSort.WithKeyAppend | src/segmentlist.cpp:101 | the subsequence of one key over a concatenation is the concatenation of the subsequences |
| SegmentSort.SortKeepsSorted | src/segmentlist.cpp:101 | sorting an already ordered list returns it unchanged, with equal keys in their original order |
| SegmentLists.Empty | src/segmentlist.hpp:35-37 | a newly constructed list is empty |
| SegmentLists.Clear | src/segmentlist.cpp:74-77 | `clear` leaves no segment |
| SegmentLists.Insert | src/segmentlist.cpp:5-17 | appends exactly one segment and keeps the earlier ones; both endpoints are tagged with the owner; start is at most end, and on a tie `t2` is the start; keeps the list well-formed |
| SegmentLists.InsertAll | src/segmentlist.cpp:19-26 | for a distinct argument list, the result is the old list followed by the other list in order, with no merging; the length is the sum |
| SegmentLists.Clip | src/segmentlist.cpp:33-38 | the inner loop emits exactly the meets of one outer segment with the inner segments it overlaps, at most one per inner segment |
| SegmentLists.Intersect | src/segmentlist.cpp:28-42 | `intersect` emits at most the product of the two lists' lengths |
| SegmentLists.IntersectMembers | src/segmentlist.cpp:28-42 | a segment is in the result exactly when it is the meet of some strictly overlapping pair, one segment from each list |
| SegmentLists.IntersectPieces | src/segmentlist.cpp:32-39 | every output lies within a segment of each input; well-formed (positive-length) inputs give well-formed (positive-length) outputs |
| SegmentLists.IntersectEmpty | src/segmentlist.cpp:28-42 | the result is empty when either list is empty |
| SegmentLists.ClipSingleton | src/segmentlist.cpp:34-37 | one inner segment yields its meet with the outer segment when they overlap, and nothing otherwise |
| SegmentLists.ClipAppend | src/segmentlist.cpp:33-38 | the inner loop keeps order and multiplicity: two inner lists joined end to end give the first list's meets followed by the second's, repeated segments included |
| SegmentLists.IntersectSingleton | src/segmentlist.cpp:32-39 | intersecting with a single segment gives the inner loop's meets for that segment |
| SegmentLists.IntersectAppend | src/segmentlist.cpp:32-39 | the outer loop keeps order and multiplicity: an argument joined from two lists gives the meets of the first part followed by those of the second |
| SegmentLists.ClipSingle | src/segmentlist.cpp:33-38 | an outer segment overlapping exactly one inner segment yields exactly that one meet |
| SegmentLists.ClipNothing | src/segmentlist.cpp:33-38 | an outer segment overlapping no inner segment yields nothing |
| SegmentLists.IntersectSelf | src/segmentlist.cpp:28-42 | for positive-length, pairwise non-overlapping segments, `A.intersect(A)` gives back `A` exactly |
| SegmentLists.ZeroLengthVanishes | src/segmentlist.cpp:34 | a zero-length segment contributes nothing against segments that do not hold its point strictly inside, and nothing against itself |
| SegmentLists.FlipAll | src/segmentlist.cpp:46-49 | the first loop of `remove` replaces each argument segment by its normal-flipped version, keeping the count |
| SegmentLists.FlipAllInvolution | src/segmentlist.cpp:47-49 | flipping the argument list keeps every `t` and owner, and flipping twice restores it |
| SegmentLists.Overlapped | src/segmentlist.cpp:54-65 | `keep` becomes false exactly when some subtrahend overlaps the minuend segment |
| SegmentLists.Cut | src/segmentlist.cpp:55-65 | the pieces cut from one minuend segment are exactly its non-empty parts before and after each overlapping subtrahend; each has positive length and lies inside the minuend; at most two per subtrahend |
| SegmentLists.RemoveEach | src/segmentlist.cpp:53-69 | a segment is in the result exactly when it is an untouched minuend segment or a piece cut from one; at most one more than twice the subtrahend count, per minuend segment |
| SegmentLists.Remove | src/segmentlist.cpp:44-72 | for a distinct argument list, the caller's argument list comes back with every normal flipped |
| SegmentLists.RemovePieces | src/segmentlist.cpp:53-69 | a minuend segment no subtrahend overlaps is kept unchanged; every result is either such a segment or a positive-length piece inside its minuend whose new boundary is a subtrahend endpoint carrying the flipped normal |
| SegmentLists.RemoveWellFormed | src/segmentlist.cpp:53-69 | `remove` keeps a well-formed list well-formed |
| SegmentLists.CutSingleton | src/segmentlist.cpp:57-64 | one subtrahend cuts off the part of the minuend before it and then the part after it, each only when non-empty, and nothing when it misses the minuend |
| SegmentLists.CutAppend | src/segmentlist.cpp:55-65 | the inner loop of `remove` keeps order and multiplicity: subtrahends joined from two lists give the first part's pieces followed by the second's, so a repeated subtrahend cuts again |
| SegmentLists.RemoveEachSingleton | src/segmentlist.cpp:53-69 | one minuend segment leaves its pieces, followed by itself when no subtrahend overlaps it |
| SegmentLists.RemoveEachAppend | src/segmentlist.cpp:53-69 | the outer loop of `remove` keeps order: minuends joined from two lists give the first part's leftovers followed by the second's |
| SegmentLists.RemoveRepeatedSubtrahend | src/segmentlist.cpp:44-72 | subtracting (2, 3) twice from (0, 10) leaves (0, 2), (3, 10), (0, 2), (3, 10), in that order |
| SegmentLists.CutNothing | src/segmentlist.cpp:55-65 | subtrahends that miss the minuend or cover it entirely cut no piece off it |
| SegmentLists.RemoveSelf | src/segmentlist.cpp:44-72 | for positive-length, pairwise non-overlapping segments, `A.remove(A)` leaves nothing |
| SegmentLists.RemoveIsNotSetDifference | src/segmentlist.cpp:53-69 | (0, 10) minus (2, 3) and (5, 6) yields (3, 10) among its pieces, and that piece still overlaps (5, 6) |
| SegmentLists.RemoveZeroLengthFromItself | src/segmentlist.cpp:53-69 | a zero-length segment, with an equal, distinct list removed from it, survives unchanged |
| SegmentLists.Boundaries | src/segmentlist.cpp:82-88 | the boundaries `getMin` scans are the start and the end of every segment, in list order |
| SegmentLists.GetMin | src/segmentlist.cpp:79-92 | `poi` is always written, and the flag is false only when its `t` is `DBL_MAX` |
| SegmentLists.ScanMin | src/segmentlist.cpp:82-88 | the loop of `getMin` never raises the candidate, and it ends either at its starting candidate or at a segment boundary beyond `offset` |
| SegmentLists.ScanMinEarliest | src/segmentlist.cpp:82-88 | over start-before-end segments, the loop never raises the candidate; it ends at its starting candidate or at a boundary beyond `offset`, and at or below every boundary beyond `offset` |
| SegmentLists.GetMinNearest | src/segmentlist.cpp:79-92 | over start-before-end segments with boundaries below `DBL_MAX`, the flag is true exactly when some boundary lies beyond `offset`, and `poi` is the earliest such boundary |
| SegmentLists.GetMinExample | src/segmentlist.cpp:79-92 | with segments (1, 3) and (5, 7), offset 0 yields 1 and offset 2 yields 3 |
| SegmentLists.GetMinBoundaryAtDblMax | src/segmentlist.cpp:81-91 | a boundary exactly at `DBL_MAX` reads as "nothing found" |
| SegmentLists.GetMinNeedsWellFormed | src/segmentlist.cpp:83-87 | on the reversed segment (5, 4) with offset 0, the start is taken and the nearer end is never tried |
| SegmentLists.StartsAfter | src/segmentlist.cpp:96-100 | exactly the segments whose start exceeds `offset` are picked, each as many times as it occurs in the list, and no other |
| SegmentLists.StartsAfterAppend | src/segmentlist.cpp:96-100 | the loop keeps list order: filtering two lists joined end to end gives the filtered first list followed by the filtered second |
| SegmentLists.GetValidSegments | src/segmentlist.cpp:94-102 | the output list ends sorted; it is a permutation of its old contents plus the segments starting beyond `offset`; it is well-formed when the inputs are |
| SegmentLists.StraddlingDropped | src/segmentlist.cpp:97 | a segment that starts at or before `offset` is not picked, even when it ends after it |
| SegmentLists.TransformNormals | src/segmentlist.cpp:104-110 | each endpoint normal becomes the matrix times that normal |
| SegmentLists.TransformNormalsOnlyNormals | src/segmentlist.cpp:104-110 | the count, every `t` and every owner are unchanged, so well-formedness is kept |
| Primitives.Lowest | src/primitive.cpp:50-55 | the nearest-hit fold never rises; it ends either at its start or at a value beyond `offset`, and at or below every value beyond `offset` |
| Primitives.LowestAppend | src/primitive.cpp:50-55 | folding a concatenation is folding the second part from where the first part ended |
| Primitives.LowestLowers | src/primitive.cpp:50-55 | the fold lowers its start exactly when some value lies strictly between `offset` and the start |
| Primitives.TestFrom | src/primitive.cpp:109-115 | the candidate loop ends at the fold's value; if it lowered `minT`, a hit is recorded from a candidate beyond `offset`; otherwise the state is untouched |
| Primitives.TestFromFirst | src/primitive.cpp:51 | the candidate kept is the first in list order at the new `minT`, because only a strictly smaller `t` replaces it |
| Primitives.Test | src/primitive.hpp:9-10 | `Primitive::intersect` reports a hit exactly when `minT` drops; it then drops to the first candidate at the nearest `t` in `(offset, minT)` and takes that candidate's normal; on a miss `minT` and the normal are untouched |
| SceneNodes.IsJoint | src/scene_node.cpp:30-33 | `is_joint` is true for a joint node and false for a plain node and a geometry node |
| SceneNodes.NewSceneNode | src/scene_node.cpp:6-9 | a new node has its name, no children and the default transform, and is not a joint |
| SceneNodes.NewJointNode | src/scene_node.cpp:92-95 | a new joint node has no children and the default transform, and is a joint |
| SceneNodes.NewGeometryNode | src/scene_node.cpp:124-128 | the constructor followed by `set_material`: the new geometry node holds its primitive and that material, has no children, and is not a joint |
| SceneNodes.SetMaterial | src/scene_node.hpp:105-108 | `set_material` replaces the material and keeps the primitive and everything else |
| SceneNodes.SetTransform | src/scene_node.hpp:20-24 | the one-argument `set_transform` stores the matrix and keeps the cached inverse equal to its inversion |
| SceneNodes.SetTransformPair | src/scene_node.hpp:26-30 | the two-argument `set_transform` stores both matrices verbatim |
| SceneNodes.Rotate | src/scene_node.cpp:15-18 | `rotate` post-multiplies the transform by the rotation and refreshes the inverse |
| SceneNodes.ScaleBy | src/scene_node.cpp:20-23 | `scale` post-multiplies the transform by the scaling and refreshes the inverse |
| SceneNodes.Translate | src/scene_node.cpp:25-28 | `translate` post-multiplies the transform by the translation and refreshes the inverse |
| SceneNodes.AddChild | src/scene_node.hpp:32-35 | the child is appended at the end, the other children keep their places, and nothing else changes |
| SceneNodes.Without | src/scene_node.hpp:39 | `list::remove` drops every occurrence of the value and keeps every other element with its multiplicity |
| SceneNodes.RemoveChild | src/scene_node.hpp:37-40 | after `remove_child` the child occurs nowhere, every other child keeps its multiplicity, and nothing else changes |
| SceneNodes.WithoutAppend | src/scene_node.hpp:39 | removal works piecewise over a concatenation, so the remaining children keep their order |
| SceneNodes.WithoutAbsent | src/scene_node.hpp:39 | removing a child that is not present changes nothing |
| SceneNodes.RemoveAfterAdd | src/scene_node.hpp:32-40 | adding a new child and then removing it restores the node |
| SceneNodes.NodeIntersect | src/scene_node.cpp:135-147 | a node is returned exactly when `minT` dropped; `minT` never rises; a returned node is a geometry node in the subtree, hit beyond `offset`; on a miss the normal is untouched |
| SceneNodes.ChildrenIntersect | src/scene_node.cpp:75-80 | the child loop never raises `minT`; if it lowers it, the result is a geometry node below one of the remaining children, hit beyond `offset`; if not, the state comes back unchanged |
| SceneNodes.NodeNearest | src/scene_node.cpp:68-86 | the traversal's final `minT` is the nearest-hit fold over every candidate of every geometry node, in visiting order; the returned node owns the first candidate at that `t`, and the returned normal is that candidate's normal carried out through the inverse transpose of its node and of every enclosing node |
| SceneNodes.ReframeFirst | src/scene_node.cpp:81-84 | carrying the normals out of a node keeps every `t`, and the first candidate at `t` stays first with its normal carried too |
| SceneNodes.ChildrenNearest | src/scene_node.cpp:75-80 | over the children, the final `minT` is the fold over their candidates in child order; the node and normal returned are those of the first candidate at that `t`; since every report strictly lowers `minT`, that is the last child to report a hit |
| SceneNodes.Intersect | src/scene_node.cpp:56-66 | on a miss, `poi` and `normal` are left as the caller had them; on a hit, the node is a geometry node in the tree and `poi` is `eye + t * ray` for some `t` in `(offset, DBL_MAX)`; which candidate and which normal is stated by `SceneNodes.IntersectNearest` |
| SceneNodes.NodeCandidates | src/scene_node.cpp:135-147 | every candidate a subtree offers, in visiting order, is owned by a geometry node: groups and joints add none of their own |
| SceneNodes.IntersectFound | src/scene_node.cpp:56-66 | a node is found exactly when some candidate lies in `(offset, DBL_MAX)` |
| SceneNodes.IntersectNearest | src/scene_node.cpp:56-66 | on a hit, `poi` is at a candidate beyond `offset` that no other candidate beyond `offset` undercuts; the node found owns the first candidate, in visiting order, at that distance, and the normal written back is that candidate's normal |
| SceneNodes.Hits | src/scene_node.cpp:35-40 | the boolean overload is true exactly when some candidate lies in `(offset, DBL_MAX)` |
| Shading.Shadowed | src/scene_node.cpp:199 | a light is shadowed exactly when some candidate along the ray towards it lies beyond the shadow offset, below `DBL_MAX` |
| Shading.LightTerm | src/scene_node.cpp:203-205 | a black light, or a light direction perpendicular to the normal, gives a black term, so it adds nothing to the light loop |
| Shading.DarkLightAddsNothing | src/scene_node.cpp:199-210 | a black light, or one perpendicular to the normal, adds nothing to the light loop, shadowed or not |
| Shading.LightsFrom | src/scene_node.cpp:191-211 | starting from a non-negative colour, the light loop stays non-negative |
| Shading.LightContribution | src/scene_node.cpp:185-214 | starting from black, the light contribution is non-negative in every channel |
| Shading.Contribution | src/scene_node.cpp:199-210 | an unshadowed light whose term has no negative channel adds exactly its Phong term; a shadowed light, or a term with a negative channel, adds nothing; the amount is never negative |
| Shading.LightsFromStep | src/scene_node.cpp:199-210 | one loop step adds that light's contribution to the accumulator |
| Shading.LightsFromAdds | src/scene_node.cpp:191-211 | the loop adds the sum of the lights' contributions to its starting colour |
| Shading.LightContributionSplit | src/scene_node.cpp:191-211 | the contribution of a concatenated light list is the sum of the contributions of its parts |
| Shading.AllShadowedIsBlack | src/scene_node.cpp:199-201 | when every light's shadow ray hits something, the lights contribute black |
| Shading.ShadowIgnoresLightDistance | src/scene_node.cpp:194-201 | any candidate beyond the shadow offset blocks the light, even one farther away than the light |
| Shading.GetColour | src/scene_node.cpp:149-183 | with a non-zero reflection weight below depth 5, the colour is the ambient term, plus the weight times the colour seen along the mirror ray one level deeper, plus `1 - reflection` times the light contribution; at depth 5 or above, with zero reflection, or when the mirror ray meets no candidate beyond 0.1, it is the ambient term plus `1 - reflection` times the light contribution: the cap does not give black |
| Shading.Reflected | src/scene_node.cpp:169-174 | the mirror ray gives black when no candidate lies beyond the mirror offset, and otherwise the hit node's colour shaded one level deeper at the point and normal the five-argument `intersect` reports |
| Shading.GetColourNonNegative | src/scene_node.cpp:149-183 | with non-negative ambient light, every diffuse colour non-negative and every reflection weight in [0, 1], `getColour` is non-negative at every recursion depth |
| Shading.ReflectedNonNegative | src/scene_node.cpp:169-174 | in such a scene the colour seen along a mirror ray is non-negative |
| Shading.IntersectColour | src/scene_node.cpp:42-54 | the colour overload reports a hit exactly when the boolean overload does; on a hit the colour is the hit node's `getColour` at depth 0, at the point and normal the five-argument `intersect` reports; on a miss the caller's colour is unchanged |
| Shading.IntersectColourNonNegative | src/scene_node.cpp:42-54 | in a scene as above, a hit is never shaded with a negative channel |

## Left out

- src/algebra.cpp is not part of this model. Matrix inversion, `normalize`, `length` and `solve3x2System` are floating-point numerics; inversion, normalisation and length are passed in as functions.
- algebra.hpp is not part of this model. `IntersectionPoint` is taken to be a record `{t, normal, owner}` whose `<` and `>` compare `t` only. A default-constructed `Matrix4x4` is taken to be the identity.
- light.hpp is not part of this model. A light is taken to hold a position, a colour and three fall-off coefficients.
- Algebra.Rotation: the cosine and sine of the angle are parameters. The conversion from degrees and the trigonometry are floating-point work. The "Undefined Axis" message on standard error is output only.
- Primitive kernels are left out: sphere, box, cone and cylinder root finding, and image primitives. They are floating-point work, and each primitive's candidates come from `Materials.Library.candidates`. The common selection loop is modelled and proved.
- Cones and cylinders: that their candidate lists depend only on the object-space ray is assumed, not checked. Their `intersect` bodies are not part of this model; src/primitive.hpp:86-114 only declares them. The helpers they would use, `checkQuadraticRoots` and `checkCircleRoot` (src/primitive.hpp:12-16), take `minT` by reference, and their bodies are not part of this model either.
- The polygonal mesh (src/mesh.cpp:66-77) is not a `Primitives.Primitive`. Its hit test first checks its bounding sphere against the incoming `minT` and gives up when the sphere is not nearer, so its candidates depend on what earlier nodes found. Its five-argument `intersect` is also `const` (src/mesh.hpp:23-24) and so does not override the pure virtual of src/primitive.hpp:9-10.
- SceneNodes.NodeNearest and SceneNodes.IntersectNearest: the nearest-hit statements assume every primitive's candidates are fixed by its object-space ray. They do not cover the mesh's `minT`-dependent bounding-sphere prune, which can leave a nearer mesh face unreported.
- SegmentLists.InsertAll and SegmentLists.Remove: the two operands are taken to be distinct lists. `A.insert(A)` on a non-empty `A` never ends, because the loop appends to the list it walks (src/segmentlist.cpp:21-23). `A.remove(A)` flips `A`'s own normals before subtracting (src/segmentlist.cpp:47-49), so no separate flipped argument is left. Neither aliased case is modelled.
- `Material::getCoefficient` uses `pow` on doubles and is a library parameter. `getAmbient` is modelled as `Materials.AmbientTerm`.
- `Material::getReflection`, which `getColour` calls, is not declared in material.hpp. The reflection weight is modelled as a field of the material.
- The renderer, the procedural tree generator, Lua scene import and the command line are left out. They are I/O, randomness and global state outside the core.
- `JointNode::set_joint_x` and `set_joint_y` only store three numbers that nothing in the core reads, so they are left out. `get_transform` and `get_inverse` are the record fields `trans` and `inv`.
- `m_id` (picking) is never read by the core and is left out.
- Child pointers are modelled as child values: `remove_child` removes every child equal in value to the argument. In the code, two distinct but identical subtrees would be told apart by address.
- SceneNodes.NodeIntersect: a geometry node's children are ignored, as in the code. The override does not visit them.
- SceneNodes.NodeIntersect: its own contract fixes the normal only on a miss. The normal on a hit is stated by `SceneNodes.NodeNearest`, which needs the candidate list to say which normal it is.
- The `Segment` constructor is the datatype constructor and stores its two points as given. Keeping the start before the end is left to `Insert`, as in the code.
- Segments.StartT and Segments.EndT have no contract of their own. They return the stored points' `t`, and `Segments.LessIsLexicographic` states `operator<` through them.
- SegmentLists.GetMin: the result is stated only for segments whose start is at or before their end, with every boundary below `DBL_MAX`. `GetMinNeedsWellFormed` and `GetMinBoundaryAtDblMax` show what happens outside those conditions.
- SegmentLists.IntersectSelf and SegmentLists.RemoveSelf: the exact `A ∩ A == A` and `A − A == []` are stated only for pairwise non-overlapping, positive-length lists. Overlapping inputs produce extra meets or leftover pieces.
- Shading.LightTerm: the term is a real number in every case. In the code, `getCoefficient` divides by the cosine between the normal and the light direction (src/material.cpp:18), so a light exactly perpendicular to the normal gives NaN in every channel. A zero fall-off sum makes the reciprocal infinite, and a black light times an infinite or NaN factor is NaN too. The light sum still agrees with the code in these cases: a NaN channel fails the `>= 0` test (src/scene_node.cpp:208), so the code skips the light, and the model adds a black term, which is nothing. A light that is not black but has a zero fall-off sum, with an infinite but not NaN term, is not covered.
- Floating-point rounding and overflow are not modelled: ray parameters, coordinates and colours are exact reals. `DBL_MAX` is its exact value.

=== FILE: algebra.dfy ===
/**
 * Points, vectors, colours and 4x4 matrices over exact reals.
 *
 * The ray tracer uses doubles; only the operations whose algebra the rest
 * of the model relies on are written out here (sums, scalings, dot
 * products, matrix products and transposes). Anything that needs a square
 * root, a power, a trigonometric function or a pivoting elimination is
 * supplied from outside through `Materials.Library`.
 */
module Algebra {

  datatype Vector3 = Vector3(x: real, y: real, z: real)

  datatype Point3 = Point3(x: real, y: real, z: real)

  /** Colour channels as reals; nothing clamps them to [0, 1]. */
  datatype Colour = Colour(r: real, g: real, b: real)

  const Zero := Vector3(0.0, 0.0, 0.0)
  const Origin := Point3(0.0, 0.0, 0.0)
  const Black := Colour(0.0, 0.0, 0.0)

  /** The largest finite double, used by `getMin` as its "nothing found" marker. */
  const DblMax: real := 179769313486231570814527423731704356798070567525844996598917476803157260780028538760589558632766878171540458953514382464234321326889464182768467546703537516986049910576551282076245490090389328944075868508455133942304583236903222948165808559332123348274797826204144723168738177180919299881250404026184124858368.0

  /** `k * v` */
  function Scale(k: real, v: Vector3): Vector3 {
    Vector3(k * v.x, k * v.y, k * v.z)
  }

  /** `-1 * v`, as the source writes negation. */
  function Negate(v: Vector3): (r: Vector3)
    ensures Scale(-1.0, r) == v
  {
    Scale(-1.0, v)
  }

  function Plus(a: Vector3, b: Vector3): Vector3 {
    Vector3(a.x + b.x, a.y + b.y, a.z + b.z)
  }

  function Dot(a: Vector3, b: Vector3): real {
    a.x * b.x + a.y * b.y + a.z * b.z
  }

  /** `p + v`: the point reached from `p` along `v`. */
  function Offset(p: Point3, v: Vector3): Point3 {
    Point3(p.x + v.x, p.y + v.y, p.z + v.z)
  }

  /** `p - q`: the vector from `q` to `p`. */
  function Between(p: Point3, q: Point3): Vector3 {
    Vector3(p.x - q.x, p.y - q.y, p.z - q.z)
  }

  /** `eye + t * ray` */
  function PointAt(eye: Point3, ray: Vector3, t: real): Point3 {
    Offset(eye, Scale(t, ray))
  }

  function Add(a: Colour, b: Colour): Colour {
    Colour(a.r + b.r, a.g + b.g, a.b + b.b)
  }

  /** Channel-wise product of two colours. */
  function Mul(a: Colour, b: Colour): Colour {
    Colour(a.r * b.r, a.g * b.g, a.b * b.b)
  }

  /** `k * c` */
  function Dim(k: real, c: Colour): Colour {
    Colour(k * c.r, k * c.g, k * c.b)
  }

  predicate NonNegative(c: Colour) {
    c.r >= 0.0 && c.g >= 0.0 && c.b >= 0.0
  }

  /** A 4x4 matrix stored row by row: entry (i, j) is at index 4 * i + j. */
  type Matrix4 = s: seq<real> | |s| == 16
    witness [1.0, 0.0, 0.0, 0.0,
             0.0, 1.0, 0.0, 0.0,
             0.0, 0.0, 1.0, 0.0,
             0.0, 0.0, 0.0, 1.0]

  /** The default-constructed matrix, taken to be the identity. */
  const Identity: Matrix4 :=
    [1.0, 0.0, 0.0, 0.0,
     0.0, 1.0, 0.0, 0.0,
     0.0, 0.0, 1.0, 0.0,
     0.0, 0.0, 0.0, 1.0]

  function RowTimesColumn(a: Matrix4, b: Matrix4, i: nat, j: nat): real
    requires i < 4 && j < 4
  {
    a[4 * i] * b[j] + a[4 * i + 1] * b[4 + j] + a[4 * i + 2] * b[8 + j] + a[4 * i + 3] * b[12 + j]
  }

  /** `a * b` */
  function MatMul(a: Matrix4, b: Matrix4): Matrix4 {
    seq(16, k requires 0 <= k < 16 => RowTimesColumn(a, b, k / 4, k % 4))
  }

  function Transpose(m: Matrix4): Matrix4 {
    seq(16, k requires 0 <= k < 16 => m[4 * (k % 4) + k / 4])
  }

  /** `m * p` for a point (homogeneous coordinate 1). */
  function TransformPoint(m: Matrix4, p: Point3): Point3 {
    Point3(m[0] * p.x + m[1] * p.y + m[2] * p.z + m[3],
           m[4] * p.x + m[5] * p.y + m[6] * p.z + m[7],
           m[8] * p.x + m[9] * p.y + m[10] * p.z + m[11])
  }

  /** `m * v` for a vector (homogeneous coordinate 0: translations do not apply). */
  function TransformVector(m: Matrix4, v: Vector3): Vector3 {
    Vector3(m[0] * v.x + m[1] * v.y + m[2] * v.z,
            m[4] * v.x + m[5] * v.y + m[6] * v.z,
            m[8] * v.x + m[9] * v.y + m[10] * v.z)
  }

  /** The displacement matrix: it moves every point by `d` and leaves directions alone. */
  function Translation(d: Vector3): (m: Matrix4)
    ensures forall p :: TransformPoint(m, p) == Offset(p, d)
    ensures forall v :: TransformVector(m, v) == v
  {
    [1.0, 0.0, 0.0, d.x,
     0.0, 1.0, 0.0, d.y,
     0.0, 0.0, 1.0, d.z,
     0.0, 0.0, 0.0, 1.0]
  }

  /** The non-uniform scale matrix: each coordinate is multiplied by its factor. */
  function Scaling(s: Vector3): (m: Matrix4)
    ensures forall p :: TransformPoint(m, p) == Point3(s.x * p.x, s.y * p.y, s.z * p.z)
    ensures forall v :: TransformVector(m, v) == Vector3(s.x * v.x, s.y * v.y, s.z * v.z)
  {
    var m: Matrix4 :=
      [s.x, 0.0, 0.0, 0.0,
       0.0, s.y, 0.0, 0.0,
       0.0, 0.0, s.z, 0.0,
       0.0, 0.0, 0.0, 1.0];
    DiagonalScales(m, s);
    m
  }

  /** A matrix with `s` on the diagonal and zeros elsewhere in the top three rows scales each coordinate. */
  lemma DiagonalScales(m: Matrix4, s: Vector3)
    requires m[0] == s.x && m[5] == s.y && m[10] == s.z
    requires m[1] == m[2] == m[3] == m[4] == m[6] == m[7] == m[8] == m[9] == m[11] == 0.0
    ensures forall p :: TransformPoint(m, p) == Point3(s.x * p.x, s.y * p.y, s.z * p.z)
    ensures forall v :: TransformVector(m, v) == Vector3(s.x * v.x, s.y * v.y, s.z * v.z)
  {
    forall p: Point3
      ensures TransformPoint(m, p) == Point3(s.x * p.x, s.y * p.y, s.z * p.z)
    {
      DiagonalScalesPoint(m, s, p);
    }
    forall v: Vector3
      ensures TransformVector(m, v) == Vector3(s.x * v.x, s.y * v.y, s.z * v.z)
    {
      DiagonalScalesVector(m, s, v);
    }
  }

  lemma DiagonalScalesPoint(m: Matrix4, s: Vector3, p: Point3)
    requires m[0] == s.x && m[5] == s.y && m[10] == s.z
    requires m[1] == m[2] == m[3] == m[4] == m[6] == m[7] == m[8] == m[9] == m[11] == 0.0
    ensures TransformPoint(m, p) == Point3(s.x * p.x, s.y * p.y, s.z * p.z)
  {
    ZeroProducts(m, p.x, p.y, p.z);
  }

  lemma DiagonalScalesVector(m: Matrix4, s: Vector3, v: Vector3)
    requires m[0] == s.x && m[5] == s.y && m[10] == s.z
    requires m[1] == m[2] == m[3] == m[4] == m[6] == m[7] == m[8] == m[9] == m[11] == 0.0
    ensures TransformVector(m, v) == Vector3(s.x * v.x, s.y * v.y, s.z * v.z)
  {
    ZeroProducts(m, v.x, v.y, v.z);
  }

  /** The off-diagonal products of a matrix that is zero off the diagonal (top three rows) vanish. */
  lemma ZeroProducts(m: Matrix4, x: real, y: real, z: real)
    requires m[1] == m[2] == m[3] == m[4] == m[6] == m[7] == m[8] == m[9] == m[11] == 0.0
    ensures m[1] * y == 0.0 && m[2] * z == 0.0 && m[4] * x == 0.0
    ensures m[6] * z == 0.0 && m[8] * x == 0.0 && m[9] * y == 0.0
  {
  }

  /**
   * The counter-clockwise rotation about axis 'x', 'y' or 'z' (either case),
   * given the cosine and sine of the angle: the axis coordinate is kept and
   * the other two turn in their plane. Any other axis letter yields the
   * default matrix, so points are left where they are.
   */
  function Rotation(axis: char, cos: real, sin: real): (m: Matrix4)
    ensures axis !in "xXyYzZ" ==> forall p :: TransformPoint(m, p) == p
    ensures axis in "zZ" ==> forall p :: TransformPoint(m, p) == Point3(cos * p.x - sin * p.y, sin * p.x + cos * p.y, p.z)
    ensures axis in "xX" ==> forall p :: TransformPoint(m, p) == Point3(p.x, cos * p.y - sin * p.z, sin * p.y + cos * p.z)
    ensures axis in "yY" ==> forall p :: TransformPoint(m, p) == Point3(cos * p.x + sin * p.z, p.y, cos * p.z - sin * p.x)
  {
    if axis == 'z' || axis == 'Z' then
      var m: Matrix4 :=
        [cos, -sin, 0.0, 0.0,
         sin, cos, 0.0, 0.0,
         0.0, 0.0, 1.0, 0.0,
         0.0, 0.0, 0.0, 1.0];
      RotatesAboutZ(m, cos, sin);
      m
    else if axis == 'x' || axis == 'X' then
      var m: Matrix4 :=
        [1.0, 0.0, 0.0, 0.0,
         0.0, cos, -sin, 0.0,
         0.0, sin, cos, 0.0,
         0.0, 0.0, 0.0, 1.0];
      RotatesAboutX(m, cos, sin);
      m
    else if axis == 'y' || axis == 'Y' then
      var m: Matrix4 :=
        [cos, 0.0, sin, 0.0,
         0.0, 1.0, 0.0, 0.0,
         -sin, 0.0, cos, 0.0,
         0.0, 0.0, 0.0, 1.0];
      RotatesAboutY(m, cos, sin);
      m
    else
      Identity
  }

  /** A matrix with the z-rotation entries turns every point about the z axis. */
  lemma RotatesAboutZ(m: Matrix4, cos: real, sin: real)
    requires m[0] == cos && m[1] == -sin && m[2] == 0.0 && m[3] == 0.0
    requires m[4] == sin && m[5] == cos && m[6] == 0.0 && m[7] == 0.0
    requires m[8] == 0.0 && m[9] == 0.0 && m[10] == 1.0 && m[11] == 0.0
    ensures forall p :: TransformPoint(m, p) == Point3(cos * p.x - sin * p.y, sin * p.x + cos * p.y, p.z)
  {
    forall p: Point3
      ensures TransformPoint(m, p) == Point3(cos * p.x - sin * p.y, sin * p.x + cos * p.y, p.z)
    {
      RotatesPointAboutZ(m, cos, sin, p);
    }
  }

  /** One point turned about the z axis, coordinate by coordinate. */
  lemma RotatesPointAboutZ(m: Matrix4, cos: real, sin: real, p: Point3)
    requires m[0] == cos && m[1] == -sin && m[2] == 0.0 && m[3] == 0.0
    requires m[4] == sin && m[5] == cos && m[6] == 0.0 && m[7] == 0.0
    requires m[8] == 0.0 && m[9] == 0.0 && m[10] == 1.0 && m[11] == 0.0
    ensures TransformPoint(m, p) == Point3(cos * p.x - sin * p.y, sin * p.x + cos * p.y, p.z)
  {
    PlaneProducts(cos, sin, p.x, p.y, p.z);
    var q := TransformPoint(m, p);
    assert q.x == cos * p.x + -(sin * p.y) + 0.0 + 0.0;
    assert q.y == sin * p.x + cos * p.y + 0.0 + 0.0;
    assert q.z == 0.0 + 0.0 + p.z + 0.0;
  }

  /** A matrix with the x-rotation entries turns every point about the x axis. */
  lemma RotatesAboutX(m: Matrix4, cos: real, sin: real)
    requires m[0] == 1.0 && m[1] == 0.0 && m[2] == 0.0 && m[3] == 0.0
    requires m[4] == 0.0 && m[5] == cos && m[6] == -sin && m[7] == 0.0
    requires m[8] == 0.0 && m[9] == sin && m[10] == cos && m[11] == 0.0
    ensures forall p :: TransformPoint(m, p) == Point3(p.x, cos * p.y - sin * p.z, sin * p.y + cos * p.z)
  {
    forall p: Point3
      ensures TransformPoint(m, p) == Point3(p.x, cos * p.y - sin * p.z, sin * p.y + cos * p.z)
    {
      RotatesPointAboutX(m, cos, sin, p);
    }
  }

  /** One point turned about the x axis, coordinate by coordinate. */
  lemma RotatesPointAboutX(m: Matrix4, cos: real, sin: real, p: Point3)
    requires m[0] == 1.0 && m[1] == 0.0 && m[2] == 0.0 && m[3] == 0.0
    requires m[4] == 0.0 && m[5] == cos && m[6] == -sin && m[7] == 0.0
    requires m[8] == 0.0 && m[9] == sin && m[10] == cos && m[11] == 0.0
    ensures TransformPoint(m, p) == Point3(p.x, cos * p.y - sin * p.z, sin * p.y + cos * p.z)
  {
    PlaneProducts(cos, sin, p.y, p.z, p.x);
    var q := TransformPoint(m, p);
    assert q.x == p.x + 0.0 + 0.0 + 0.0;
    assert q.y == 0.0 + cos * p.y + -(sin * p.z) + 0.0;
    assert q.z == 0.0 + sin * p.y + cos * p.z + 0.0;
  }

  /** A matrix with the y-rotation entries turns every point about the y axis. */
  lemma RotatesAboutY(m: Matrix4, cos: real, sin: real)
    requires m[0] == cos && m[1] == 0.0 && m[2] == sin && m[3] == 0.0
    requires m[4] == 0.0 && m[5] == 1.0 && m[6] == 0.0 && m[7] == 0.0
    requires m[8] == -sin && m[9] == 0.0 && m[10] == cos && m[11] == 0.0
    ensures forall p :: TransformPoint(m, p) == Point3(cos * p.x + sin * p.z, p.y, cos * p.z - sin * p.x)
  {
    forall p: Point3
      ensures TransformPoint(m, p) == Point3(cos * p.x + sin * p.z, p.y, cos * p.z - sin * p.x)
    {
      RotatesPointAboutY(m, cos, sin, p);
    }
  }

  /** One point turned about the y axis, coordinate by coordinate. */
  lemma RotatesPointAboutY(m: Matrix4, cos: real, sin: real, p: Point3)
    requires m[0] == cos && m[1] == 0.0 && m[2] == sin && m[3] == 0.0
    requires m[4] == 0.0 && m[5] == 1.0 && m[6] == 0.0 && m[7] == 0.0
    requires m[8] == -sin && m[9] == 0.0 && m[10] == cos && m[11] == 0.0
    ensures TransformPoint(m, p) == Point3(cos * p.x + sin * p.z, p.y, cos * p.z - sin * p.x)
  {
    PlaneProducts(cos, sin, p.z, p.x, p.y);
    var q := TransformPoint(m, p);
    assert q.x == cos * p.x + 0.0 + sin * p.z + 0.0;
    assert q.y == 0.0 + p.y + 0.0 + 0.0;
    assert q.z == -(sin * p.x) + 0.0 + cos * p.z + 0.0;
  }

  /** Products with the constant entries of a rotation matrix vanish or pass the coordinate through. */
  lemma PlaneProducts(cos: real, sin: real, u: real, v: real, w: real)
    ensures 0.0 * u == 0.0 && 0.0 * v == 0.0 && 0.0 * w == 0.0
    ensures 1.0 * u == u && 1.0 * v == v && 1.0 * w == w
    ensures -sin * u == -(sin * u) && -sin * v == -(sin * v) && -sin * w == -(sin * w)
  {
  }
}

=== FILE: material.dfy ===
/**
 * Materials, lights, and the floating-point collaborators the traversal and
 * shading call but the model does not reproduce.
 */
module Materials {
  import opened Algebra
  import opened Primitives

  /**
   * A surface material: diffuse and specular colours, Phong exponent, and
   * the mirror-reflection weight that `getColour` reads.
   */
  datatype Material = Material(kd: Colour, ks: Colour, shininess: real, reflection: real)

  /** `getAmbient(ambient)`: the ambient light filtered by the diffuse colour. */
  function AmbientTerm(m: Material, ambient: Colour): Colour {
    Mul(ambient, m.kd)
  }

  /** A point light with constant, linear and quadratic fall-off coefficients. */
  datatype Light = Light(position: Point3, colour: Colour, falloff: (real, real, real))

  /**
   * The operations computed in floating point by code outside this model:
   * - `candidates`: a primitive's root finding along an object-space ray;
   * - `invert`: `Matrix4x4::invert`, Gauss-Jordan elimination;
   * - `cosDeg`, `sinDeg`: cosine and sine of an angle given in degrees;
   * - `normalize`, `length`: `Vector3D::normalize` and `Vector3D::length`;
   * - `coefficient`: `Material::getCoefficient`, the Phong term using `pow`;
   * - `reciprocal`: `1 / x` in doubles.
   */
  datatype Library = Library(
    candidates: (Primitive, Point3, Vector3) -> seq<Candidate>,
    invert: Matrix4 -> Matrix4,
    cosDeg: real -> real,
    sinDeg: real -> real,
    normalize: Vector3 -> Vector3,
    length: Vector3 -> real,
    coefficient: (Material, Vector3, Vector3, Vector3) -> Colour,
    reciprocal: real -> real)
}

=== FILE: options.dfy ===
/** An optional value, standing for a pointer that may be null. */
module Options {

  datatype Option<T> = None | Some(value: T)
}

=== FILE: primitive.dfy ===
/**
 * The part of a primitive's hit test that does not depend on its shape.
 *
 * Every primitive finds a handful of candidate ray parameters (the roots of
 * a quadratic, the six face planes of a box, ...) together with the surface
 * normal at each. That root finding is floating-point work and is supplied
 * from outside as a candidate list. What the model keeps is the loop every
 * primitive runs over its candidates: a candidate lying beyond `offset` and
 * before the current `minT` becomes the new `minT` and sets the normal.
 */
module Primitives {
  import opened Algebra

  /**
   * The primitive shapes a geometry node can hold. The polygonal mesh is not
   * among them: its hit test first checks a bounding sphere against the
   * incoming `minT`, so its candidates are not a fixed list.
   */
  datatype Primitive =
    | Sphere
    | Cube
    | Cone
    | Cylinder
    | NonhierSphere(pos: Point3, radius: real)
    | NonhierBox(pos: Point3, size: real)

  /** A ray parameter at which the ray meets the surface, with the normal there. */
  datatype Candidate = Candidate(t: real, normal: Vector3)

  /** The outcome of a hit test: whether anything was closer, and the updated `minT` and normal. */
  datatype HitTest = HitTest(found: bool, minT: real, normal: Vector3)

  /**
   * The nearest-hit fold: starting from `m`, each value beyond `offset` and
   * below the running minimum replaces it.
   */
  function Lowest(ts: seq<real>, offset: real, m: real): (r: real)
    ensures r <= m
    ensures r == m || (r in ts && offset < r)
    ensures forall t :: t in ts && offset < t ==> r <= t
  {
    if |ts| == 0 then
      m
    else
      assert ts == [ts[0]] + ts[1..];
      Lowest(ts[1..], offset, if offset < ts[0] < m then ts[0] else m)
  }

  /** The fold over a concatenation is the fold over the second part, started where the first part ended. */
  lemma {:induction false} LowestAppend(a: seq<real>, b: seq<real>, offset: real, m: real)
    ensures Lowest(a + b, offset, m) == Lowest(b, offset, Lowest(a, offset, m))
  {
    if |a| > 0 {
      assert (a + b)[1..] == a[1..] + b;
      LowestAppend(a[1..], b, offset, if offset < a[0] < m then a[0] else m);
    } else {
      assert a + b == b;
    }
  }

  /** The fold lowers its start exactly when some value lies strictly between `offset` and the start. */
  lemma LowestLowers(ts: seq<real>, offset: real, m: real)
    ensures Lowest(ts, offset, m) < m <==> exists t :: t in ts && offset < t < m
  {
  }

  /** The ray parameters of a candidate list, in order. */
  function Params(cs: seq<Candidate>): (r: seq<real>)
    ensures |r| == |cs|
    ensures forall i :: 0 <= i < |cs| ==> r[i] == cs[i].t
  {
    seq(|cs|, i requires 0 <= i < |cs| => cs[i].t)
  }

  /** No value before index `k` lies in (offset, t]: index `k` is the first to reach `t`. */
  predicate FirstReaching(ts: seq<real>, k: int, offset: real, t: real)
    requires 0 <= k <= |ts|
  {
    forall j :: 0 <= j < k ==> !(offset < ts[j] <= t)
  }

  /** The candidate loop, continuing from the state `acc`. */
  function TestFrom(cs: seq<Candidate>, offset: real, acc: HitTest): (r: HitTest)
    ensures r.minT == Lowest(Params(cs), offset, acc.minT)
    ensures r.minT < acc.minT ==> r.found && offset < r.minT && Candidate(r.minT, r.normal) in cs
    ensures r.minT == acc.minT ==> r == acc
  {
    if |cs| == 0 then
      acc
    else
      var c := cs[0];
      var next := if offset < c.t && c.t < acc.minT then HitTest(true, c.t, c.normal) else acc;
      var r := TestFrom(cs[1..], offset, next);
      assert Params(cs)[0] == c.t && Params(cs)[1..] == Params(cs[1..]);
      assert r.minT < next.minT ==> Candidate(r.minT, r.normal) in cs by {
        if r.minT < next.minT {
          var k :| 0 <= k < |cs[1..]| && cs[1..][k] == Candidate(r.minT, r.normal);
          assert cs[k + 1] == Candidate(r.minT, r.normal);
        }
      }
      assert next != acc ==> next.found && cs[0] == Candidate(next.minT, next.normal);
      r
  }

  /**
   * When the loop lowers `minT`, the candidate it keeps is the first one in
   * list order at the new `minT`: a later candidate with an equal `t` does
   * not replace it.
   */
  lemma {:induction false} TestFromFirst(cs: seq<Candidate>, offset: real, acc: HitTest)
    ensures var r := TestFrom(cs, offset, acc);
            r.minT < acc.minT ==> exists k :: 0 <= k < |cs| && cs[k] == Candidate(r.minT, r.normal)
                                              && FirstReaching(Params(cs), k, offset, r.minT)
  {
    if |cs| > 0 {
      var c := cs[0];
      var next := if offset < c.t && c.t < acc.minT then HitTest(true, c.t, c.normal) else acc;
      var r := TestFrom(cs[1..], offset, next);
      assert TestFrom(cs, offset, acc) == r;
      if r.minT < acc.minT {
        if r.minT < next.minT {
          TestFromFirst(cs[1..], offset, next);
          var k :| 0 <= k < |cs[1..]| && cs[1..][k] == Candidate(r.minT, r.normal)
                   && FirstReaching(Params(cs[1..]), k, offset, r.minT);
          FirstReachingCons(cs, k, offset, r.minT);
        } else {
          assert r == next && cs[0] == Candidate(r.minT, r.normal);
        }
      }
    }
  }

  /** Being first within a prefix survives appending anything after it. */
  lemma FirstReachingAppend(a: seq<real>, b: seq<real>, k: nat, offset: real, t: real)
    requires k <= |a| && FirstReaching(a, k, offset, t)
    ensures FirstReaching(a + b, k, offset, t)
  {
    assert forall j :: 0 <= j < k ==> (a + b)[j] == a[j];
  }

  /** Being first within a suffix carries over when nothing in front of it reaches `t`. */
  lemma FirstReachingAfter(a: seq<real>, b: seq<real>, k: nat, offset: real, t: real)
    requires k <= |b| && FirstReaching(b, k, offset, t)
    requires FirstReaching(a, |a|, offset, t)
    ensures FirstReaching(a + b, |a| + k, offset, t)
  {
    forall j | 0 <= j < |a| + k
      ensures !(offset < (a + b)[j] <= t)
    {
      if j >= |a| {
        assert (a + b)[j] == b[j - |a|];
      }
    }
  }

  /** Being first in the tail carries over to the whole list when the head does not reach `t`. */
  lemma FirstReachingCons(cs: seq<Candidate>, k: nat, offset: real, t: real)
    requires 0 < |cs| && k < |cs| - 1 && FirstReaching(Params(cs[1..]), k, offset, t) && !(offset < cs[0].t <= t)
    ensures cs[k + 1] == cs[1..][k] && FirstReaching(Params(cs), k + 1, offset, t)
  {
    var ts := Params(cs);
    forall j | 0 <= j < k + 1
      ensures !(offset < ts[j] <= t)
    {
      if j > 0 {
        assert ts[j] == Params(cs[1..])[j - 1];
      }
    }
  }

  /**
   * `Primitive::intersect(eye, ray, offset, minT, normal)` for a primitive
   * whose candidates along the ray are `cs`. On a hit `minT` drops to a value
   * in (offset, minT) taken from a candidate, and the normal is that
   * candidate's; on a miss both are left untouched.
   */
  function Test(cs: seq<Candidate>, offset: real, minT: real, normal: Vector3): (r: HitTest)
    ensures r.found <==> r.minT < minT
    ensures r.found ==> offset < r.minT && Candidate(r.minT, r.normal) in cs
    ensures r.found ==> exists k :: 0 <= k < |cs| && cs[k] == Candidate(r.minT, r.normal)
                                    && FirstReaching(Params(cs), k, offset, r.minT)
    ensures !r.found ==> r.minT == minT && r.normal == normal
    ensures r.minT == Lowest(Params(cs), offset, minT)
  {
    TestFromFirst(cs, offset, HitTest(false, minT, normal));
    TestFrom(cs, offset, HitTest(false, minT, normal))
  }
}

=== FILE: scenenode.dfy ===
/**
 * The scene graph and its nearest-hit traversal.
 *
 * A node owns its children; the graph is a tree, so it is modelled as an
 * inductive value. A child pointer is identified with the child's value:
 * two structurally identical subtrees cannot be told apart.
 */
module SceneNodes {
  import opened Algebra
  import opened Options
  import opened Primitives
  import opened Materials

  /** What a node is: a plain grouping node, a joint, or a geometry node with its primitive and material. */
  datatype Kind = Group | Joint | Geometry(primitive: Primitive, material: Material)

  /** A node: its name, its transform with the cached inverse, its kind and its ordered children. */
  datatype Node = Node(name: string, trans: Matrix4, inv: Matrix4, kind: Kind, children: seq<Node>)

  // ---------------------------------------------------------------------------
  // Construction and editing
  // ---------------------------------------------------------------------------

  /** `is_joint()`: true for a joint node, false for a plain node and for a geometry node. */
  function IsJoint(n: Node): (r: bool)
    ensures n.kind.Joint? ==> r
    ensures n.kind.Group? || n.kind.Geometry? ==> !r
  {
    n.kind == Joint
  }

  /** `SceneNode(name)`: no children, default (identity) transform, not a joint. */
  function NewSceneNode(name: string): (r: Node)
    ensures r.name == name && r.children == [] && r.trans == Identity && r.inv == Identity
    ensures !IsJoint(r) && !r.kind.Geometry?
  {
    Node(name, Identity, Identity, Group, [])
  }

  /** `JointNode(name)`: like a plain node, except that it reports being a joint. */
  function NewJointNode(name: string): (r: Node)
    ensures r.name == name && r.children == [] && r.trans == Identity && r.inv == Identity
    ensures IsJoint(r)
  {
    Node(name, Identity, Identity, Joint, [])
  }

  /** `GeometryNode(name, primitive)` followed by `set_material(material)`: a non-joint leaf holding both. */
  function NewGeometryNode(name: string, primitive: Primitive, material: Material): (r: Node)
    ensures r.name == name && r.children == [] && r.trans == Identity && r.inv == Identity
    ensures !IsJoint(r) && r.kind.Geometry? && r.kind.primitive == primitive && r.kind.material == material
  {
    Node(name, Identity, Identity, Geometry(primitive, material), [])
  }

  /** `set_material(material)` on a geometry node: replaces the material, keeps the primitive and everything else. */
  function SetMaterial(n: Node, material: Material): (r: Node)
    requires n.kind.Geometry?
    ensures r.kind == Geometry(n.kind.primitive, material)
    ensures r.name == n.name && r.trans == n.trans && r.inv == n.inv && r.children == n.children
  {
    n.(kind := n.kind.(material := material))
  }

  /** `set_transform(m)`: stores `m` and refreshes the cached inverse from it; nothing else changes. */
  function SetTransform(n: Node, m: Matrix4, lib: Library): (r: Node)
    ensures r.trans == m && r.inv == lib.invert(r.trans)
    ensures r.name == n.name && r.kind == n.kind && r.children == n.children
  {
    n.(trans := m, inv := lib.invert(m))
  }

  /** `set_transform(m, i)`: stores both matrices verbatim, without checking that they are inverses. */
  function SetTransformPair(n: Node, m: Matrix4, i: Matrix4): (r: Node)
    ensures r.trans == m && r.inv == i
    ensures r.name == n.name && r.kind == n.kind && r.children == n.children
  {
    n.(trans := m, inv := i)
  }

  /** `rotate(axis, angle)`: post-multiplies the rotation, then refreshes the inverse. */
  function Rotate(n: Node, axis: char, angle: real, lib: Library): (r: Node)
    ensures r.trans == MatMul(n.trans, Rotation(axis, lib.cosDeg(angle), lib.sinDeg(angle)))
    ensures r.inv == lib.invert(r.trans)
    ensures r.name == n.name && r.kind == n.kind && r.children == n.children
  {
    SetTransform(n, MatMul(n.trans, Rotation(axis, lib.cosDeg(angle), lib.sinDeg(angle))), lib)
  }

  /** `scale(amount)`: post-multiplies the scaling, then refreshes the inverse. */
  function ScaleBy(n: Node, amount: Vector3, lib: Library): (r: Node)
    ensures r.trans == MatMul(n.trans, Scaling(amount))
    ensures r.inv == lib.invert(r.trans)
    ensures r.name == n.name && r.kind == n.kind && r.children == n.children
  {
    SetTransform(n, MatMul(n.trans, Scaling(amount)), lib)
  }

  /** `translate(amount)`: post-multiplies the translation, then refreshes the inverse. */
  function Translate(n: Node, amount: Vector3, lib: Library): (r: Node)
    ensures r.trans == MatMul(n.trans, Translation(amount))
    ensures r.inv == lib.invert(r.trans)
    ensures r.name == n.name && r.kind == n.kind && r.children == n.children
  {
    SetTransform(n, MatMul(n.trans, Translation(amount)), lib)
  }

  /** `add_child(child)`: the child goes at the end of the list; nothing else changes. */
  function AddChild(n: Node, child: Node): (r: Node)
    ensures |r.children| == |n.children| + 1 && r.children[..|n.children|] == n.children
    ensures r.children[|n.children|] == child
    ensures r.name == n.name && r.kind == n.kind && r.trans == n.trans && r.inv == n.inv
  {
    n.(children := n.children + [child])
  }

  /** The sequence with every occurrence of `x` dropped, the rest in order (`std::list::remove`). */
  function Without(s: seq<Node>, x: Node): (r: seq<Node>)
    ensures x !in r
    ensures forall y :: y != x ==> multiset(r)[y] == multiset(s)[y]
    ensures |r| == |s| - multiset(s)[x]
  {
    if |s| == 0 then
      []
    else
      assert s == [s[0]] + s[1..];
      (if s[0] == x then [] else [s[0]]) + Without(s[1..], x)
  }

  /** `remove_child(child)`: every occurrence of `child` leaves the list; nothing else changes. */
  function RemoveChild(n: Node, child: Node): (r: Node)
    ensures child !in r.children
    ensures forall y :: y != child ==> multiset(r.children)[y] == multiset(n.children)[y]
    ensures r.name == n.name && r.kind == n.kind && r.trans == n.trans && r.inv == n.inv
  {
    n.(children := Without(n.children, child))
  }

  /** Dropping occurrences works piecewise, so the children that stay keep their order. */
  lemma {:induction false} WithoutAppend(a: seq<Node>, b: seq<Node>, x: Node)
    ensures Without(a + b, x) == Without(a, x) + Without(b, x)
  {
    if |a| == 0 {
      assert a + b == b;
    } else {
      var front := if a[0] == x then [] else [a[0]];
      assert (a + b)[0] == a[0] && (a + b)[1..] == a[1..] + b;
      calc {
        Without(a + b, x);
        front + Without(a[1..] + b, x);
        { WithoutAppend(a[1..], b, x); }
        front + (Without(a[1..], x) + Without(b, x));
        (front + Without(a[1..], x)) + Without(b, x);
        Without(a, x) + Without(b, x);
      }
    }
  }

  /** Removing a child that is not there changes nothing. */
  lemma {:induction false} WithoutAbsent(s: seq<Node>, x: Node)
    requires x !in s
    ensures Without(s, x) == s
  {
    if |s| > 0 {
      assert s == [s[0]] + s[1..];
      assert s[0] != x && x !in s[1..];
      WithoutAbsent(s[1..], x);
      assert Without(s, x) == [s[0]] + Without(s[1..], x);
    }
  }

  /** Adding a new child and then removing it gives back the original node. */
  lemma RemoveAfterAdd(n: Node, child: Node)
    requires child !in n.children
    ensures RemoveChild(AddChild(n, child), child) == n
  {
    WithoutAppend(n.children, [child], child);
    WithoutAbsent(n.children, child);
    assert Without([child], child) == [];
  }

  // ---------------------------------------------------------------------------
  // Nearest-hit traversal
  // ---------------------------------------------------------------------------

  /** `m` is `n` itself or lies somewhere below it. */
  predicate Reaches(n: Node, m: Node)
    decreases n
  {
    n == m || exists k :: 0 <= k < |n.children| && Reaches(n.children[k], m)
  }

  /** The state threaded through the recursion: the node found so far, the normal, and `minT`. */
  datatype Probe = Probe(hit: Option<Node>, normal: Vector3, minT: real)

  /**
   * The recursive `intersect(eye, ray, offset, normal, minT)`. A geometry
   * node tests its primitive in object space and ignores its children; any
   * other node visits its children in order with the ray in its own object
   * space. Whoever reports a hit has lowered `minT`; the normal is mapped
   * back through the inverse transpose only on a hit.
   */
  function NodeIntersect(lib: Library, n: Node, eye: Point3, ray: Vector3, offset: real,
                         normal: Vector3, minT: real): (r: Probe)
    ensures r.hit.Some? <==> r.minT < minT
    ensures r.minT <= minT
    ensures r.hit.Some? ==> offset < r.minT && r.hit.value.kind.Geometry? && Reaches(n, r.hit.value)
    ensures r.hit.None? ==> r.normal == normal
    decreases n, 1
  {
    var localEye := TransformPoint(n.inv, eye);
    var localRay := TransformVector(n.inv, ray);
    if n.kind.Geometry? then
      var h := Test(lib.candidates(n.kind.primitive, localEye, localRay), offset, minT, normal);
      if h.found then
        Probe(Some(n), TransformVector(Transpose(n.inv), h.normal), h.minT)
      else
        Probe(None, h.normal, h.minT)
    else
      var p := ChildrenIntersect(lib, n, 0, localEye, localRay, offset, Probe(None, normal, minT));
      if p.hit.Some? then p.(normal := TransformVector(Transpose(n.inv), p.normal)) else p
  }

  /**
   * The loop over `n`'s children from index `i`: each child continues from
   * the normal and `minT` the previous ones left, and a child that reports
   * a node replaces the one found so far.
   */
  function ChildrenIntersect(lib: Library, n: Node, i: nat, eye: Point3, ray: Vector3, offset: real,
                             acc: Probe): (r: Probe)
    requires i <= |n.children|
    ensures r.minT <= acc.minT
    ensures r.minT < acc.minT ==> r.hit.Some? && offset < r.minT && r.hit.value.kind.Geometry?
    ensures r.minT < acc.minT ==> exists k :: i <= k < |n.children| && Reaches(n.children[k], r.hit.value)
    ensures r.minT == acc.minT ==> r == acc
    decreases n, 0, |n.children| - i
  {
    if i == |n.children| then
      acc
    else
      var c := NodeIntersect(lib, n.children[i], eye, ray, offset, acc.normal, acc.minT);
      ChildrenIntersect(lib, n, i + 1, eye, ray, offset,
                        Probe(if c.hit.Some? then c.hit else acc.hit, c.normal, c.minT))
  }

  /**
   * A candidate ray parameter, its normal carried back to the frame the
   * traversal was entered in, and the geometry node whose primitive
   * produced it.
   */
  datatype Tagged = Tagged(t: real, normal: Vector3, owner: Node)

  /** The normals of `ts` carried out of a node with inverse transform `inv`, as `m_invtrans.transpose() * normal`. */
  function Reframe(ts: seq<Tagged>, inv: Matrix4): (r: seq<Tagged>)
    ensures |r| == |ts|
    ensures forall k :: 0 <= k < |ts| ==> r[k].t == ts[k].t && r[k].owner == ts[k].owner
  {
    seq(|ts|, k requires 0 <= k < |ts| => ts[k].(normal := TransformVector(Transpose(inv), ts[k].normal)))
  }

  /**
   * Every candidate the traversal of `n` considers, in visiting order, each
   * with the ray carried into its node's object space the same way and its
   * normal carried back out through every enclosing node.
   */
  function NodeCandidates(lib: Library, n: Node, eye: Point3, ray: Vector3): (r: seq<Tagged>)
    ensures forall k :: 0 <= k < |r| ==> r[k].owner.kind.Geometry?
    decreases n, 1
  {
    var localEye := TransformPoint(n.inv, eye);
    var localRay := TransformVector(n.inv, ray);
    if n.kind.Geometry? then
      var cs := lib.candidates(n.kind.primitive, localEye, localRay);
      seq(|cs|, k requires 0 <= k < |cs| => Tagged(cs[k].t, TransformVector(Transpose(n.inv), cs[k].normal), n))
    else
      Reframe(ChildrenCandidates(lib, n, 0, localEye, localRay), n.inv)
  }

  function ChildrenCandidates(lib: Library, n: Node, i: nat, eye: Point3, ray: Vector3): (r: seq<Tagged>)
    requires i <= |n.children|
    ensures forall k :: 0 <= k < |r| ==> r[k].owner.kind.Geometry?
    decreases n, 0, |n.children| - i
  {
    if i == |n.children| then
      []
    else
      NodeCandidates(lib, n.children[i], eye, ray) + ChildrenCandidates(lib, n, i + 1, eye, ray)
  }

  /** The ray parameters of a tagged list, in order. */
  function Times(ts: seq<Tagged>): (r: seq<real>)
    ensures |r| == |ts|
    ensures forall k :: 0 <= k < |ts| ==> r[k] == ts[k].t
  {
    seq(|ts|, k requires 0 <= k < |ts| => ts[k].t)
  }

  lemma TimesAppend(a: seq<Tagged>, b: seq<Tagged>)
    ensures Times(a + b) == Times(a) + Times(b)
  {
  }

  /**
   * Some entry of `cs` at `t` has normal `normal` and belongs to `owner`,
   * and no entry before it lies in (offset, t].
   */
  predicate OwnsFirst(cs: seq<Tagged>, owner: Node, normal: Vector3, offset: real, t: real) {
    exists k :: 0 <= k < |cs| && cs[k] == Tagged(t, normal, owner) && FirstReaching(Times(cs), k, offset, t)
  }

  /** Carrying normals out of a node keeps the entry that is first at `t`, with its normal carried too. */
  lemma ReframeFirst(ts: seq<Tagged>, inv: Matrix4, owner: Node, normal: Vector3, offset: real, t: real)
    requires OwnsFirst(ts, owner, normal, offset, t)
    ensures Times(Reframe(ts, inv)) == Times(ts)
    ensures OwnsFirst(Reframe(ts, inv), owner, TransformVector(Transpose(inv), normal), offset, t)
  {
    var k :| 0 <= k < |ts| && ts[k] == Tagged(t, normal, owner) && FirstReaching(Times(ts), k, offset, t);
    ReframeTimes(ts, inv);
    assert Reframe(ts, inv)[k] == Tagged(t, TransformVector(Transpose(inv), normal), owner);
  }

  lemma ReframeTimes(ts: seq<Tagged>, inv: Matrix4)
    ensures Times(Reframe(ts, inv)) == Times(ts)
  {
    assert forall k :: 0 <= k < |ts| ==> Times(Reframe(ts, inv))[k] == Times(ts)[k];
  }

  /**
   * The traversal of `n` computes the nearest-hit fold over all of its
   * candidates; the node it reports owns the first candidate at the new
   * `minT`, and the normal it reports is that candidate's normal.
   */
  lemma {:induction false} NodeNearest(lib: Library, n: Node, eye: Point3, ray: Vector3, offset: real,
                                       normal: Vector3, minT: real)
    ensures NodeIntersect(lib, n, eye, ray, offset, normal, minT).minT
         == Lowest(Times(NodeCandidates(lib, n, eye, ray)), offset, minT)
    ensures var r := NodeIntersect(lib, n, eye, ray, offset, normal, minT);
            var cands := NodeCandidates(lib, n, eye, ray);
            r.hit.Some? ==> OwnsFirst(cands, r.hit.value, r.normal, offset, r.minT)
    decreases n, 1
  {
    var localEye := TransformPoint(n.inv, eye);
    var localRay := TransformVector(n.inv, ray);
    var r := NodeIntersect(lib, n, eye, ray, offset, normal, minT);
    if n.kind.Geometry? {
      var cs := lib.candidates(n.kind.primitive, localEye, localRay);
      var tagged := NodeCandidates(lib, n, eye, ray);
      assert Times(tagged) == Params(cs);
      if r.hit.Some? {
        var h := Test(cs, offset, minT, normal);
        var k :| 0 <= k < |cs| && cs[k] == Candidate(h.minT, h.normal) && FirstReaching(Params(cs), k, offset, h.minT);
        assert tagged[k] == Tagged(r.minT, r.normal, r.hit.value);
        assert FirstReaching(Times(tagged), k, offset, r.minT);
      }
    } else {
      var acc := Probe(None, normal, minT);
      var p := ChildrenIntersect(lib, n, 0, localEye, localRay, offset, acc);
      var inner := ChildrenCandidates(lib, n, 0, localEye, localRay);
      ChildrenNearest(lib, n, 0, localEye, localRay, offset, acc);
      ReframeTimes(inner, n.inv);
      if r.hit.Some? {
        ReframeFirst(inner, n.inv, p.hit.value, p.normal, offset, p.minT);
      }
    }
  }

  lemma {:induction false} ChildrenNearest(lib: Library, n: Node, i: nat, eye: Point3, ray: Vector3, offset: real,
                                           acc: Probe)
    requires i <= |n.children|
    ensures ChildrenIntersect(lib, n, i, eye, ray, offset, acc).minT
         == Lowest(Times(ChildrenCandidates(lib, n, i, eye, ray)), offset, acc.minT)
    ensures var r := ChildrenIntersect(lib, n, i, eye, ray, offset, acc);
            var cands := ChildrenCandidates(lib, n, i, eye, ray);
            r.minT < acc.minT ==> OwnsFirst(cands, r.hit.value, r.normal, offset, r.minT)
    decreases n, 0, |n.children| - i
  {
    if i < |n.children| {
      var child := n.children[i];
      var c := NodeIntersect(lib, child, eye, ray, offset, acc.normal, acc.minT);
      var next := Probe(if c.hit.Some? then c.hit else acc.hit, c.normal, c.minT);
      var head := NodeCandidates(lib, child, eye, ray);
      var tail := ChildrenCandidates(lib, n, i + 1, eye, ray);
      NodeNearest(lib, child, eye, ray, offset, acc.normal, acc.minT);
      ChildrenNearest(lib, n, i + 1, eye, ray, offset, next);
      var r := ChildrenIntersect(lib, n, i + 1, eye, ray, offset, next);
      assert ChildrenIntersect(lib, n, i, eye, ray, offset, acc) == r;
      assert ChildrenCandidates(lib, n, i, eye, ray) == head + tail;
      ChildStep(head, tail, offset, acc, c, next, r);
    }
  }

  /**
   * One step of the children loop: the child's own report `c` and the
   * report `r` of the children after it combine into the report over both
   * candidate lists.
   */
  lemma ChildStep(head: seq<Tagged>, tail: seq<Tagged>, offset: real, acc: Probe, c: Probe, next: Probe, r: Probe)
    requires c.minT == Lowest(Times(head), offset, acc.minT) && c.minT <= acc.minT
    requires c.hit.Some? ==> OwnsFirst(head, c.hit.value, c.normal, offset, c.minT)
    requires c.hit.Some? <==> c.minT < acc.minT
    requires next == Probe(if c.hit.Some? then c.hit else acc.hit, c.normal, c.minT)
    requires r.minT == Lowest(Times(tail), offset, next.minT) && r.minT <= next.minT
    requires r.minT < next.minT ==> r.hit.Some? && OwnsFirst(tail, r.hit.value, r.normal, offset, r.minT)
    requires r.minT == next.minT ==> r == next
    ensures r.minT == Lowest(Times(head + tail), offset, acc.minT)
    ensures r.minT < acc.minT ==> r.hit.Some? && OwnsFirst(head + tail, r.hit.value, r.normal, offset, r.minT)
  {
    TimesAppend(head, tail);
    LowestAppend(Times(head), Times(tail), offset, acc.minT);
    if r.minT < acc.minT {
      FirstInEither(head, tail, offset, acc.minT, c.minT, r.minT, r.hit.value, r.normal);
    }
  }

  /**
   * The first entry at the fold's value over a list made of two parts comes
   * from the back part when the back part lowered the value, and from the
   * front part otherwise.
   */
  lemma FirstInEither(head: seq<Tagged>, tail: seq<Tagged>, offset: real, m: real, mid: real, t: real,
                      owner: Node, normal: Vector3)
    requires mid == Lowest(Times(head), offset, m) && t <= mid && t < m
    requires t < mid ==> OwnsFirst(tail, owner, normal, offset, t)
    requires t == mid ==> OwnsFirst(head, owner, normal, offset, t)
    ensures OwnsFirst(head + tail, owner, normal, offset, t)
  {
    if t < mid {
      var k :| 0 <= k < |tail| && tail[k] == Tagged(t, normal, owner) && FirstReaching(Times(tail), k, offset, t);
      FirstInTail(head, tail, k, offset, m, t);
    } else {
      var k :| 0 <= k < |head| && head[k] == Tagged(t, normal, owner) && FirstReaching(Times(head), k, offset, t);
      FirstInHead(head, tail, k, offset, t);
    }
  }

  /** An entry first at `t` in the front part stays first at `t` in the whole. */
  lemma FirstInHead(head: seq<Tagged>, tail: seq<Tagged>, k: nat, offset: real, t: real)
    requires k < |head| && FirstReaching(Times(head), k, offset, t)
    ensures (head + tail)[k] == head[k] && FirstReaching(Times(head + tail), k, offset, t)
  {
    TimesAppend(head, tail);
    FirstReachingAppend(Times(head), Times(tail), k, offset, t);
  }

  /**
   * An entry first at `t` in the back part is first at `t` in the whole
   * when `t` lies below the fold over the front part.
   */
  lemma FirstInTail(head: seq<Tagged>, tail: seq<Tagged>, k: nat, offset: real, m: real, t: real)
    requires k < |tail| && FirstReaching(Times(tail), k, offset, t)
    requires t < Lowest(Times(head), offset, m)
    ensures (head + tail)[|head| + k] == tail[k] && FirstReaching(Times(head + tail), |head| + k, offset, t)
  {
    var th := Times(head);
    TimesAppend(head, tail);
    forall j | 0 <= j < |th|
      ensures !(offset < th[j] <= t)
    {
      assert th[j] in th;
    }
    FirstReachingAfter(th, Times(tail), k, offset, t);
  }

  // ---------------------------------------------------------------------------
  // The public intersect overloads
  // ---------------------------------------------------------------------------

  /** The outputs of the five-argument `intersect`: the node found, and `poi` and `normal`. */
  datatype Located = Located(hit: Option<Node>, poi: Point3, normal: Vector3)

  /**
   * `intersect(eye, ray, offset, poi, normal)`: traverses from `minT =
   * DBL_MAX`; on a hit `poi` becomes `eye + minT * ray`. On a miss the
   * caller's `poi` and `normal` are left as they were.
   */
  function Intersect(lib: Library, root: Node, eye: Point3, ray: Vector3, offset: real,
                     poi: Point3, normal: Vector3): (r: Located)
    ensures r.hit.None? ==> r.poi == poi && r.normal == normal
    ensures r.hit.Some? ==> r.hit.value.kind.Geometry? && Reaches(root, r.hit.value)
    ensures r.hit.Some? ==> exists t :: offset < t < DblMax && r.poi == PointAt(eye, ray, t)
  {
    var p := NodeIntersect(lib, root, eye, ray, offset, normal, DblMax);
    Located(p.hit, if p.hit.Some? then PointAt(eye, ray, p.minT) else poi, p.normal)
  }

  /** Some entry of the tagged list lies in (offset, m) exactly when some of its times does. */
  lemma TimesInRange(cs: seq<Tagged>, offset: real, m: real)
    ensures (exists t :: t in Times(cs) && offset < t < m) <==> exists k :: 0 <= k < |cs| && offset < cs[k].t < m
  {
    var ts := Times(cs);
    if exists t :: t in ts && offset < t < m {
      var t :| t in ts && offset < t < m;
      var k :| 0 <= k < |ts| && ts[k] == t;
    }
    if exists k :: 0 <= k < |cs| && offset < cs[k].t < m {
      var k :| 0 <= k < |cs| && offset < cs[k].t < m;
      assert ts[k] in ts;
    }
  }

  /** No candidate lies strictly between `offset` and `DBL_MAX`. */
  predicate NoneBeyond(cs: seq<Tagged>, offset: real) {
    forall k :: 0 <= k < |cs| ==> !(offset < cs[k].t < DblMax)
  }

  /** The five-argument `intersect` finds something exactly when some candidate lies in (offset, DBL_MAX). */
  lemma IntersectFound(lib: Library, root: Node, eye: Point3, ray: Vector3, offset: real,
                       poi: Point3, normal: Vector3)
    ensures var cs := NodeCandidates(lib, root, eye, ray);
            Intersect(lib, root, eye, ray, offset, poi, normal).hit.Some?
            <==> exists k :: 0 <= k < |cs| && offset < cs[k].t < DblMax
  {
    var cs := NodeCandidates(lib, root, eye, ray);
    NodeNearest(lib, root, eye, ray, offset, normal, DblMax);
    LowestLowers(Times(cs), offset, DblMax);
    TimesInRange(cs, offset, DblMax);
  }

  /**
   * `cs[k]` lies beyond `offset`, no candidate beyond `offset` is nearer,
   * and every candidate before it beyond `offset` is strictly farther.
   */
  predicate NearestAt(cs: seq<Tagged>, k: nat, offset: real)
    requires k < |cs|
  {
    offset < cs[k].t
    && (forall j :: 0 <= j < |cs| && offset < cs[j].t ==> cs[k].t <= cs[j].t)
    && (forall j :: 0 <= j < k && offset < cs[j].t ==> cs[k].t < cs[j].t)
  }

  /**
   * On a hit, the five-argument `intersect` reports the point at the
   * nearest candidate beyond `offset`, and the node owning the first
   * candidate, in visiting order, at that distance, with that candidate's
   * normal.
   */
  lemma IntersectNearest(lib: Library, root: Node, eye: Point3, ray: Vector3, offset: real,
                         poi: Point3, normal: Vector3)
    ensures var cs := NodeCandidates(lib, root, eye, ray);
            var r := Intersect(lib, root, eye, ray, offset, poi, normal);
            r.hit.Some? ==> exists k :: 0 <= k < |cs| && cs[k].owner == r.hit.value && cs[k].normal == r.normal
                                        && r.poi == PointAt(eye, ray, cs[k].t) && NearestAt(cs, k, offset)
  {
    var cs := NodeCandidates(lib, root, eye, ray);
    var p := NodeIntersect(lib, root, eye, ray, offset, normal, DblMax);
    var r := Intersect(lib, root, eye, ray, offset, poi, normal);
    assert r.hit == p.hit && r.normal == p.normal;
    if p.hit.Some? {
      assert r.poi == PointAt(eye, ray, p.minT);
      NodeNearest(lib, root, eye, ray, offset, normal, DblMax);
      var k := NearestIndex(cs, p.hit.value, p.normal, offset, DblMax, p.minT);
      assert cs[k].owner == r.hit.value && cs[k].normal == r.normal && r.poi == PointAt(eye, ray, cs[k].t);
    }
  }

  /** The first entry owned by `owner` at the fold's value `t`, when `t` lies beyond `offset`, is the nearest. */
  lemma NearestIndex(cs: seq<Tagged>, owner: Node, normal: Vector3, offset: real, m: real, t: real) returns (k: nat)
    requires offset < t == Lowest(Times(cs), offset, m)
    requires OwnsFirst(cs, owner, normal, offset, t)
    ensures k < |cs| && cs[k] == Tagged(t, normal, owner) && NearestAt(cs, k, offset)
  {
    var ts := Times(cs);
    k :| 0 <= k < |cs| && cs[k] == Tagged(t, normal, owner) && FirstReaching(ts, k, offset, t);
    forall j | 0 <= j < |cs| && offset < cs[j].t
      ensures cs[k].t <= cs[j].t
    {
      assert ts[j] in ts;
    }
  }

  /**
   * `intersect(eye, ray, offset)`: whether anything is hit, via the
   * five-argument overload with fresh local outputs. True exactly when some
   * candidate lies in (offset, DBL_MAX).
   */
  function Hits(lib: Library, root: Node, eye: Point3, ray: Vector3, offset: real): (r: bool)
    ensures var cs := NodeCandidates(lib, root, eye, ray);
            r <==> exists k :: 0 <= k < |cs| && offset < cs[k].t < DblMax
  {
    IntersectFound(lib, root, eye, ray, offset, Origin, Zero);
    Intersect(lib, root, eye, ray, offset, Origin, Zero).hit.Some?
  }
}

=== FILE: segment.dfy ===
/**
 * Intersection points and segments: the "inside" spans of a ray that the
 * CSG combinators work on.
 *
 * An intersection point carries the ray parameter `t`, the surface normal
 * there and the geometry node that owns it. The point type's own comparison
 * operators are taken to compare `t` alone.
 */
module Segments {
  import opened Algebra

  /** The owning geometry node: null until `SegmentList.insert` tags the point. */
  datatype Owner = NullOwner | OwnedBy(node: nat)

  datatype IntersectionPoint = IntersectionPoint(t: real, normal: Vector3, owner: Owner)

  /** `std::max(a, b)` under `<` on `t`: `b` only when strictly later, so a tie keeps `a`. */
  function Later(a: IntersectionPoint, b: IntersectionPoint): (r: IntersectionPoint)
    ensures r == a || r == b
    ensures r.t >= a.t && r.t >= b.t
    ensures a.t == b.t ==> r == a
  {
    if a.t < b.t then b else a
  }

  /** `std::min(a, b)` under `<` on `t`: `b` only when strictly earlier, so a tie keeps `a`. */
  function Earlier(a: IntersectionPoint, b: IntersectionPoint): (r: IntersectionPoint)
    ensures r == a || r == b
    ensures r.t <= a.t && r.t <= b.t
    ensures a.t == b.t ==> r == a
  {
    if b.t < a.t then b else a
  }

  /**
   * A span between two intersection points. The constructor stores both
   * points as given; keeping `start` before `end` is the caller's job.
   */
  datatype Segment = Segment(start: IntersectionPoint, end: IntersectionPoint) {

    /** `start()`: the ray parameter of the stored start point. */
    function StartT(): real {
      start.t
    }

    /** `end()`: the ray parameter of the stored end point. */
    function EndT(): real {
      end.t
    }

    /**
     * `operator<`: by start parameter, and by end parameter when the starts
     * are equal. It is the strict part of the key order `KeyLe`.
     */
    function Less(other: Segment): (r: bool)
      ensures r ==> KeyLe(this, other)
      ensures r <==> !KeyLe(other, this)
    {
      if start.t == other.start.t then end.t < other.end.t else start.t < other.start.t
    }

    /** `flipNormals()`: both endpoint normals negated, nothing else touched. */
    function FlipNormals(): (r: Segment)
      ensures r.start == start.(normal := Negate(start.normal))
      ensures r.end == end.(normal := Negate(end.normal))
    {
      Segment(start.(normal := Negate(start.normal)), end.(normal := Negate(end.normal)))
    }
  }

  /** Non-strict lexicographic order on (start t, end t): the order a sorted list follows. */
  predicate KeyLe(a: Segment, b: Segment) {
    a.start.t < b.start.t || (a.start.t == b.start.t && a.end.t <= b.end.t)
  }

  /** `start <= end`: every segment the list operations build has this shape. */
  predicate WellFormed(s: Segment) {
    s.start.t <= s.end.t
  }

  /** The span has strictly positive length. */
  predicate Proper(s: Segment) {
    s.start.t < s.end.t
  }

  /** `inner` lies within `outer` (closed bounds on `t`). */
  predicate Within(inner: Segment, outer: Segment) {
    outer.start.t <= inner.start.t && inner.end.t <= outer.end.t
  }

  /**
   * The overlap test both `intersect` and `remove` use: each segment ends
   * strictly after the other one starts.
   */
  predicate Overlaps(a: Segment, b: Segment) {
    a.end.t > b.start.t && b.end.t > a.start.t
  }

  /** The overlap of two segments: the later start and the earlier end, ties keeping `a`'s point. */
  function Meet(a: Segment, b: Segment): (r: Segment)
    ensures r.start.t >= a.start.t && r.start.t >= b.start.t
    ensures r.end.t <= a.end.t && r.end.t <= b.end.t
  {
    Segment(Later(a.start, b.start), Earlier(a.end, b.end))
  }

  // ---------------------------------------------------------------------------
  // Properties of a single segment
  // ---------------------------------------------------------------------------

  /** `operator<` is exactly the strict lexicographic order on (start t, end t). */
  lemma LessIsLexicographic(a: Segment, b: Segment)
    ensures a.Less(b) <==> !KeyLe(b, a)
    ensures a.Less(b) <==> (a.StartT() < b.StartT() || (a.StartT() == b.StartT() && a.EndT() < b.EndT()))
  {
  }

  /** `operator<` is irreflexive and transitive, and its incomparability is transitive too. */
  lemma LessIsStrictWeakOrder(a: Segment, b: Segment, c: Segment)
    ensures !a.Less(a)
    ensures a.Less(b) && b.Less(c) ==> a.Less(c)
    ensures !a.Less(b) && !b.Less(a) && !b.Less(c) && !c.Less(b) ==> !a.Less(c) && !c.Less(a)
  {
  }

  /** Flipping normals keeps both parameters and both owners, and flipping twice is the identity. */
  lemma FlipNormalsInvolution(s: Segment)
    ensures s.FlipNormals().StartT() == s.StartT() && s.FlipNormals().EndT() == s.EndT()
    ensures s.FlipNormals().start.owner == s.start.owner && s.FlipNormals().end.owner == s.end.owner
    ensures s.FlipNormals().FlipNormals() == s
  {
  }

  /** The overlap test ignores normals, so flipping either side does not change it. */
  lemma OverlapsIgnoresNormals(a: Segment, b: Segment)
    ensures Overlaps(a.FlipNormals(), b) <==> Overlaps(a, b)
    ensures Overlaps(a, b.FlipNormals()) <==> Overlaps(a, b)
    ensures Overlaps(a, b) <==> Overlaps(b, a)
  {
  }

  /**
   * The meet of two overlapping segments lies within both of them, its
   * endpoints are taken from the two segments, and it is well-formed
   * (of positive length) when both are.
   */
  lemma MeetOfOverlapping(a: Segment, b: Segment)
    requires Overlaps(a, b)
    ensures WellFormed(a) && WellFormed(b) ==> WellFormed(Meet(a, b))
    ensures Proper(a) && Proper(b) ==> Proper(Meet(a, b))
    ensures Within(Meet(a, b), a) && Within(Meet(a, b), b)
    ensures Meet(a, b).start in {a.start, b.start} && Meet(a, b).end in {a.end, b.end}
  {
  }

  /** A segment overlaps itself exactly when it has positive length, and then meets itself in itself. */
  lemma SelfOverlap(s: Segment)
    ensures Overlaps(s, s) <==> Proper(s)
    ensures Meet(s, s) == s
  {
  }

  /**
   * A zero-length segment overlaps no segment that fails to contain its
   * point strictly inside; in particular not itself and not any other
   * zero-length segment.
   */
  lemma ZeroLengthOverlaps(z: Segment, s: Segment)
    requires z.start.t == z.end.t
    ensures Overlaps(z, s) <==> s.start.t < z.start.t < s.end.t
  {
  }
}

=== FILE: segmentlist.dfy ===
/**
 * `SegmentList`: the CSG combinators over lists of inside-spans.
 *
 * A list is a plain sequence of segments in insertion order. Each member
 * function models one `SegmentList` operation and returns the list the
 * operation leaves behind; `Remove` also returns the argument list, since
 * the source flips that list's normals in place.
 */
module SegmentLists {
  import opened Algebra
  import opened Segments
  import opened SegmentSort

  type SegmentList = seq<Segment>

  predicate AllWellFormed(l: SegmentList) {
    forall i :: 0 <= i < |l| ==> WellFormed(l[i])
  }

  predicate AllProper(l: SegmentList) {
    forall i :: 0 <= i < |l| ==> Proper(l[i])
  }

  /** No two different entries of the list overlap. */
  predicate Disjoint(l: SegmentList) {
    forall i, j :: 0 <= i < |l| && 0 <= j < |l| && i != j ==> !Overlaps(l[i], l[j])
  }

  // ---------------------------------------------------------------------------
  // Construction, insert and clear
  // ---------------------------------------------------------------------------

  /** A freshly constructed list holds no segment. */
  function Empty(): (r: SegmentList)
    ensures |r| == 0
  {
    []
  }

  /** `clear()`: afterwards the list holds no segment, whatever it held before. */
  function Clear(l: SegmentList): (r: SegmentList)
    ensures |r| == 0
  {
    []
  }

  /**
   * `insert(t1, t2, owner)`: tags both points with `owner` and appends one
   * segment running from the earlier to the later one; on a tie the second
   * point becomes the start.
   */
  function Insert(l: SegmentList, t1: IntersectionPoint, t2: IntersectionPoint, owner: Owner): (r: SegmentList)
    ensures |r| == |l| + 1 && r[..|l|] == l
    ensures WellFormed(r[|l|])
    ensures r[|l|].start.owner == owner && r[|l|].end.owner == owner
    ensures r[|l|] == Segment(t1.(owner := owner), t2.(owner := owner))
         || r[|l|] == Segment(t2.(owner := owner), t1.(owner := owner))
    ensures t1.t == t2.t ==> r[|l|].start == t2.(owner := owner)
    ensures AllWellFormed(l) ==> AllWellFormed(r)
  {
    var a := t1.(owner := owner);
    var b := t2.(owner := owner);
    l + [if a.t < b.t then Segment(a, b) else Segment(b, a)]
  }

  /** `insert(list)`: every segment of `other`, in order, after the existing ones; nothing is merged. */
  function InsertAll(l: SegmentList, other: SegmentList): (r: SegmentList)
    ensures |r| == |l| + |other|
    ensures r[..|l|] == l && r[|l|..] == other
    ensures AllWellFormed(l) && AllWellFormed(other) ==> AllWellFormed(r)
  {
    assert forall i :: |l| <= i < |l + other| ==> (l + other)[i] == other[i - |l|];
    l + other
  }

  // ---------------------------------------------------------------------------
  // intersect
  // ---------------------------------------------------------------------------

  /** The inner loop of `intersect`: the meet of `o` with each segment of `l` it overlaps, in order. */
  function Clip(o: Segment, l: SegmentList): (r: SegmentList)
    ensures |r| <= |l|
    ensures forall s :: s in r <==> exists j :: 0 <= j < |l| && Overlaps(o, l[j]) && s == Meet(o, l[j])
  {
    if |l| == 0 then
      []
    else
      var rest := Clip(o, l[1..]);
      assert forall j :: 0 < j < |l| ==> l[j] == l[1..][j - 1];
      (if Overlaps(o, l[0]) then [Meet(o, l[0])] else []) + rest
  }

  /**
   * `intersect(other)`: for each segment of `other` (outer loop) and each
   * segment of this list (inner loop) that overlap, their meet.
   */
  function Intersect(l: SegmentList, other: SegmentList): (r: SegmentList)
    ensures |r| <= |l| * |other|
  {
    if |other| == 0 then
      []
    else
      var rest := Intersect(l, other[1..]);
      assert |l| * |other| == |l| + |l| * (|other| - 1);
      Clip(other[0], l) + rest
  }

  /** A segment is in the intersection exactly when it is the meet of an overlapping pair. */
  lemma {:induction false} IntersectMembers(l: SegmentList, other: SegmentList)
    ensures forall s :: s in Intersect(l, other) <==>
      exists i, j :: 0 <= i < |other| && 0 <= j < |l| && Overlaps(other[i], l[j]) && s == Meet(other[i], l[j])
  {
    if |other| > 0 {
      IntersectMembers(l, other[1..]);
      forall s
        ensures s in Intersect(l, other) <==>
          exists i, j :: 0 <= i < |other| && 0 <= j < |l| && Overlaps(other[i], l[j]) && s == Meet(other[i], l[j])
      {
        if s in Intersect(l, other) {
          if s in Clip(other[0], l) {
            var j :| 0 <= j < |l| && Overlaps(other[0], l[j]) && s == Meet(other[0], l[j]);
          } else {
            assert s in Intersect(l, other[1..]);
            var i, j :| 0 <= i < |other[1..]| && 0 <= j < |l| && Overlaps(other[1..][i], l[j]) && s == Meet(other[1..][i], l[j]);
            assert other[1..][i] == other[i + 1];
          }
        }
        if exists i, j :: 0 <= i < |other| && 0 <= j < |l| && Overlaps(other[i], l[j]) && s == Meet(other[i], l[j]) {
          var i, j :| 0 <= i < |other| && 0 <= j < |l| && Overlaps(other[i], l[j]) && s == Meet(other[i], l[j]);
          if i == 0 {
            assert s in Clip(other[0], l);
          } else {
            assert other[1..][i - 1] == other[i];
            assert s in Intersect(l, other[1..]);
          }
        }
      }
    }
  }

  /**
   * Every segment of the intersection lies within a segment of each list
   * and is well-formed (of positive length) when the inputs are.
   */
  lemma IntersectPieces(l: SegmentList, other: SegmentList)
    ensures forall s :: s in Intersect(l, other) ==>
      exists i, j :: 0 <= i < |other| && 0 <= j < |l| && Within(s, other[i]) && Within(s, l[j])
    ensures AllWellFormed(l) && AllWellFormed(other) ==> AllWellFormed(Intersect(l, other))
    ensures AllProper(l) && AllProper(other) ==> AllProper(Intersect(l, other))
  {
    IntersectMembers(l, other);
    var r := Intersect(l, other);
    forall s | s in r
      ensures exists i, j :: 0 <= i < |other| && 0 <= j < |l| && Within(s, other[i]) && Within(s, l[j])
      ensures AllWellFormed(l) && AllWellFormed(other) ==> WellFormed(s)
      ensures AllProper(l) && AllProper(other) ==> Proper(s)
    {
      var i, j :| 0 <= i < |other| && 0 <= j < |l| && Overlaps(other[i], l[j]) && s == Meet(other[i], l[j]);
      MeetOfOverlapping(other[i], l[j]);
    }
    assert forall k :: 0 <= k < |r| ==> r[k] in r;
  }

  /** Intersecting with an empty list, on either side, leaves nothing. */
  lemma IntersectEmpty(l: SegmentList, other: SegmentList)
    requires |l| == 0 || |other| == 0
    ensures Intersect(l, other) == []
  {
    assert |Intersect(l, other)| <= |l| * |other|;
  }

  /** When `o` overlaps exactly one entry of `l`, its inner loop yields that one meet. */
  lemma {:induction false} ClipSingle(o: Segment, l: SegmentList, k: nat)
    requires k < |l| && Overlaps(o, l[k])
    requires forall j :: 0 <= j < |l| && j != k ==> !Overlaps(o, l[j])
    ensures Clip(o, l) == [Meet(o, l[k])]
  {
    assert forall j :: 0 <= j < |l[1..]| ==> l[1..][j] == l[j + 1];
    if k > 0 {
      ClipSingle(o, l[1..], k - 1);
    } else {
      ClipNothing(o, l[1..]);
    }
  }

  /** Nothing is emitted for `o` when it overlaps no entry of `l`. */
  lemma {:induction false} ClipNothing(o: Segment, l: SegmentList)
    requires forall j :: 0 <= j < |l| ==> !Overlaps(o, l[j])
    ensures Clip(o, l) == []
  {
    if |l| > 0 {
      assert forall j :: 0 <= j < |l[1..]| ==> l[1..][j] == l[j + 1];
      ClipNothing(o, l[1..]);
    }
  }

  lemma {:induction false} IntersectSelfFrom(a: SegmentList, k: nat)
    requires Disjoint(a) && AllProper(a) && k <= |a|
    ensures Intersect(a, a[k..]) == a[k..]
    decreases |a| - k
  {
    if k < |a| {
      SelfOverlap(a[k]);
      ClipSingle(a[k], a, k);
      IntersectSelfFrom(a, k + 1);
      assert a[k..][1..] == a[k + 1..];
      assert a[k..] == [a[k]] + a[k + 1..];
    }
  }

  /**
   * For a list of positive-length segments no two of which overlap,
   * `A.intersect(A)` gives back `A` exactly.
   */
  lemma IntersectSelf(a: SegmentList)
    requires Disjoint(a) && AllProper(a)
    ensures Intersect(a, a) == a
  {
    IntersectSelfFrom(a, 0);
    assert a[0..] == a;
  }

  /**
   * A zero-length segment yields nothing against a list none of whose
   * segments holds its point strictly inside; in particular it vanishes
   * when intersected with itself.
   */
  lemma ZeroLengthVanishes(z: Segment, l: SegmentList)
    requires z.start.t == z.end.t
    requires forall j :: 0 <= j < |l| ==> !(l[j].start.t < z.start.t < l[j].end.t)
    ensures Intersect(l, [z]) == []
    ensures Intersect([z], [z]) == []
  {
    forall j | 0 <= j < |l|
      ensures !Overlaps(z, l[j])
    {
      ZeroLengthOverlaps(z, l[j]);
    }
    ClipNothing(z, l);
    ZeroLengthOverlaps(z, z);
    ClipNothing(z, [z]);
    assert [z][1..] == [];
  }

  /** One step of the inner loop: the first entry's meet, if they overlap, comes first. */
  lemma ClipCons(o: Segment, l: SegmentList)
    requires |l| > 0
    ensures Clip(o, l) == (if Overlaps(o, l[0]) then [Meet(o, l[0])] else []) + Clip(o, l[1..])
  {
  }

  /** The inner loop on a single entry: its meet with `o` when they overlap, nothing otherwise. */
  lemma ClipSingleton(o: Segment, s: Segment)
    ensures Clip(o, [s]) == if Overlaps(o, s) then [Meet(o, s)] else []
  {
    ClipCons(o, [s]);
    assert [s][1..] == [];
  }

  /**
   * The inner loop keeps order and multiplicity: clipping a concatenation
   * clips each part and concatenates, so every overlapping entry yields its
   * own meet, repeated entries included, in the order of `l`.
   */
  lemma {:induction false} ClipAppend(o: Segment, a: SegmentList, b: SegmentList)
    ensures Clip(o, a + b) == Clip(o, a) + Clip(o, b)
  {
    if |a| == 0 {
      assert a + b == b;
    } else {
      var front := if Overlaps(o, a[0]) then [Meet(o, a[0])] else [];
      var ab := a + b;
      assert ab[0] == a[0] && ab[1..] == a[1..] + b;
      ClipCons(o, ab);
      ClipCons(o, a);
      ClipAppend(o, a[1..], b);
      ConcatAssoc(front, Clip(o, a[1..]), Clip(o, b));
    }
  }

  /** One step of the outer loop: the first argument segment's meets come first. */
  lemma IntersectCons(l: SegmentList, other: SegmentList)
    requires |other| > 0
    ensures Intersect(l, other) == Clip(other[0], l) + Intersect(l, other[1..])
  {
  }

  /** Intersecting with a single segment is one run of the inner loop. */
  lemma IntersectSingleton(l: SegmentList, s: Segment)
    ensures Intersect(l, [s]) == Clip(s, l)
  {
    IntersectCons(l, [s]);
    assert [s][1..] == [];
    IntersectEmpty(l, []);
  }

  /**
   * The outer loop keeps order and multiplicity: intersecting with a
   * concatenation intersects with each part and concatenates, so the meets
   * come grouped by argument segment, in the argument's order.
   */
  lemma {:induction false} IntersectAppend(l: SegmentList, a: SegmentList, b: SegmentList)
    ensures Intersect(l, a + b) == Intersect(l, a) + Intersect(l, b)
  {
    if |a| == 0 {
      assert a + b == b;
      IntersectEmpty(l, a);
    } else {
      var ab := a + b;
      assert ab[0] == a[0] && ab[1..] == a[1..] + b;
      IntersectCons(l, ab);
      IntersectCons(l, a);
      IntersectAppend(l, a[1..], b);
      ConcatAssoc(Clip(a[0], l), Intersect(l, a[1..]), Intersect(l, b));
    }
  }

  // ---------------------------------------------------------------------------
  // remove
  // ---------------------------------------------------------------------------

  /** The first loop of `remove`: every segment of the argument with its normals flipped. */
  function FlipAll(l: SegmentList): (r: SegmentList)
    ensures |r| == |l|
    ensures forall i :: 0 <= i < |l| ==> r[i] == l[i].FlipNormals()
  {
    seq(|l|, i requires 0 <= i < |l| => l[i].FlipNormals())
  }

  /** Flipping a whole list keeps every parameter and owner, and flipping twice restores it. */
  lemma FlipAllInvolution(l: SegmentList)
    ensures forall i :: 0 <= i < |l| ==> FlipAll(l)[i].start.t == l[i].start.t && FlipAll(l)[i].end.t == l[i].end.t
    ensures forall i :: 0 <= i < |l| ==> FlipAll(l)[i].start.owner == l[i].start.owner && FlipAll(l)[i].end.owner == l[i].end.owner
    ensures FlipAll(FlipAll(l)) == l
  {
    forall i | 0 <= i < |l| {
      FlipNormalsInvolution(l[i]);
    }
  }

  /** Whether some segment of `subs` overlaps `m`: the negation of `keep` in `remove`. */
  function Overlapped(m: Segment, subs: SegmentList): (r: bool)
    ensures r <==> exists i :: 0 <= i < |subs| && Overlaps(subs[i], m)
  {
    if |subs| == 0 then
      false
    else
      assert forall i :: 0 < i < |subs| ==> subs[i] == subs[1..][i - 1];
      Overlaps(subs[0], m) || Overlapped(m, subs[1..])
  }

  /** The piece of `m` before subtrahend `sub`, ending at `sub`'s start point. */
  function Before(m: Segment, sub: Segment): (r: Segment)
    ensures r.start == m.start && r.end == sub.start
  {
    Segment(m.start, sub.start)
  }

  /** The piece of `m` after subtrahend `sub`, starting at `sub`'s end point. */
  function After(m: Segment, sub: Segment): (r: Segment)
    ensures r.start == sub.end && r.end == m.end
  {
    Segment(sub.end, m.end)
  }

  /** `s` is a piece subtrahend `sub` cuts off `m`: the part before it or the part after it, if non-empty. */
  predicate CutPiece(m: Segment, sub: Segment, s: Segment) {
    && Overlaps(sub, m)
    && ((m.start.t < sub.start.t && s == Before(m, sub)) || (m.end.t > sub.end.t && s == After(m, sub)))
  }

  /** `s` is what the outer loop of `remove` emits for minuend `m`: `m` itself if untouched, else a piece. */
  predicate Leftover(m: Segment, subs: SegmentList, s: Segment) {
    (!Overlapped(m, subs) && s == m) || s in Cut(m, subs)
  }

  /**
   * The inner loop of `remove` for one minuend segment `m`: for every
   * overlapping subtrahend, the part of `m` before it and the part after
   * it, whichever are non-empty.
   */
  function Cut(m: Segment, subs: SegmentList): (r: SegmentList)
    ensures |r| <= 2 * |subs|
    ensures forall s :: s in r <==> exists i :: 0 <= i < |subs| && CutPiece(m, subs[i], s)
    ensures forall s :: s in r ==> Proper(s) && Within(s, m)
  {
    if |subs| == 0 then
      []
    else
      var sub := subs[0];
      assert forall i :: 0 < i < |subs| ==> subs[i] == subs[1..][i - 1];
      var here :=
        if Overlaps(sub, m) then
          (if m.start.t < sub.start.t then [Before(m, sub)] else [])
          + (if m.end.t > sub.end.t then [After(m, sub)] else [])
        else [];
      here + Cut(m, subs[1..])
  }

  /** The outer loop of `remove`: pieces of each minuend segment, or the segment itself when untouched. */
  function RemoveEach(l: SegmentList, subs: SegmentList): (r: SegmentList)
    ensures |r| <= |l| * (2 * |subs| + 1)
    ensures forall s :: s in r <==> exists j :: 0 <= j < |l| && Leftover(l[j], subs, s)
  {
    if |l| == 0 then
      []
    else
      var rest := RemoveEach(l[1..], subs);
      assert forall j :: 0 < j < |l| ==> l[j] == l[1..][j - 1];
      assert |l| * (2 * |subs| + 1) == (2 * |subs| + 1) + (|l| - 1) * (2 * |subs| + 1);
      Cut(l[0], subs) + (if Overlapped(l[0], subs) then [] else [l[0]]) + rest
  }

  /** What `remove` leaves behind: this list's new contents, and the argument with flipped normals. */
  datatype Removal = Removal(remaining: SegmentList, flipped: SegmentList)

  /**
   * `remove(other)`: flips the normals of every segment of `other` (the
   * caller sees this), then subtracts each flipped segment from each
   * segment of this list.
   */
  function Remove(l: SegmentList, other: SegmentList): (r: Removal)
    ensures r.flipped == FlipAll(other)
  {
    var flipped := FlipAll(other);
    Removal(RemoveEach(l, flipped), flipped)
  }

  /**
   * `s` is `m` itself, which no segment of `other` overlaps, or a
   * positive-length piece of `m` whose new boundary is an endpoint of an
   * overlapping segment of `other`, with that endpoint's normal flipped.
   */
  predicate PieceOf(s: Segment, m: Segment, other: SegmentList) {
    || (s == m && forall i :: 0 <= i < |other| ==> !Overlaps(other[i], m))
    || (Proper(s) && Within(s, m) && exists i :: 0 <= i < |other| && Overlaps(other[i], m) && FlippedBoundary(s, m, other[i]))
  }

  /** `s` runs from `m`'s start to `sub`'s flipped start, or from `sub`'s flipped end to `m`'s end. */
  predicate FlippedBoundary(s: Segment, m: Segment, sub: Segment) {
    s == Segment(m.start, sub.FlipNormals().start) || s == Segment(sub.FlipNormals().end, m.end)
  }

  /**
   * A minuend segment that no subtrahend overlaps survives unchanged; every
   * other result is a positive-length piece inside the minuend segment it
   * came from, whose new boundary is a subtrahend endpoint carrying the
   * flipped normal.
   */
  lemma RemovePieces(l: SegmentList, other: SegmentList)
    ensures forall j :: 0 <= j < |l| && (forall i :: 0 <= i < |other| ==> !Overlaps(other[i], l[j])) ==>
      l[j] in Remove(l, other).remaining
    ensures forall s :: s in Remove(l, other).remaining ==> exists j :: 0 <= j < |l| && PieceOf(s, l[j], other)
  {
    var f := FlipAll(other);
    var r := Remove(l, other).remaining;
    forall i, j | 0 <= i < |other| && 0 <= j < |l|
      ensures Overlaps(f[i], l[j]) <==> Overlaps(other[i], l[j])
    {
      OverlapsIgnoresNormals(other[i], l[j]);
    }
    forall j | 0 <= j < |l| && (forall i :: 0 <= i < |other| ==> !Overlaps(other[i], l[j]))
      ensures l[j] in r
    {
      assert Leftover(l[j], f, l[j]);
    }
    forall s | s in r
      ensures exists j :: 0 <= j < |l| && PieceOf(s, l[j], other)
    {
      var j :| 0 <= j < |l| && Leftover(l[j], f, s);
      if s in Cut(l[j], f) {
        var i :| 0 <= i < |f| && CutPiece(l[j], f[i], s);
        assert PieceOf(s, l[j], other);
      } else {
        assert PieceOf(s, l[j], other);
      }
    }
  }

  /** The pieces `remove` produces are well-formed whenever the minuend list is. */
  lemma RemoveWellFormed(l: SegmentList, other: SegmentList)
    requires AllWellFormed(l)
    ensures AllWellFormed(Remove(l, other).remaining)
  {
    var r := Remove(l, other).remaining;
    forall k | 0 <= k < |r|
      ensures WellFormed(r[k])
    {
      assert r[k] in r;
      var j :| 0 <= j < |l| && Leftover(l[j], FlipAll(other), r[k]);
    }
  }

  lemma {:induction false} RemoveSelfFrom(a: SegmentList, k: nat)
    requires Disjoint(a) && AllProper(a) && k <= |a|
    ensures RemoveEach(a[k..], FlipAll(a)) == []
    decreases |a| - k
  {
    if k < |a| {
      var f := FlipAll(a);
      var m := a[k];
      forall i | 0 <= i < |f|
        ensures Overlaps(f[i], m) <==> i == k
      {
        OverlapsIgnoresNormals(a[i], m);
      }
      assert Overlapped(m, f);
      CutNothing(m, f);
      RemoveSelfFrom(a, k + 1);
      assert a[k..][1..] == a[k + 1..];
    }
  }

  /** No piece is cut off `m` by subtrahends that either miss it or cover it entirely. */
  lemma {:induction false} CutNothing(m: Segment, subs: SegmentList)
    requires forall i :: 0 <= i < |subs| ==> !Overlaps(subs[i], m) || (subs[i].start.t <= m.start.t && m.end.t <= subs[i].end.t)
    ensures Cut(m, subs) == []
  {
    if |subs| > 0 {
      assert forall i :: 0 <= i < |subs[1..]| ==> subs[1..][i] == subs[i + 1];
      CutNothing(m, subs[1..]);
    }
  }

  /** One step of the inner loop of `remove`: the pieces the first subtrahend cuts off come first. */
  lemma CutCons(m: Segment, subs: SegmentList)
    requires |subs| > 0
    ensures Cut(m, subs) ==
      (if Overlaps(subs[0], m) then
         (if m.start.t < subs[0].start.t then [Before(m, subs[0])] else [])
         + (if m.end.t > subs[0].end.t then [After(m, subs[0])] else [])
       else [])
      + Cut(m, subs[1..])
  {
  }

  /**
   * A single subtrahend cuts off the part of `m` before it and then the
   * part after it, each only when non-empty, and nothing when it misses `m`.
   */
  lemma CutSingleton(m: Segment, sub: Segment)
    ensures Cut(m, [sub]) ==
      if Overlaps(sub, m) then
        (if m.start.t < sub.start.t then [Before(m, sub)] else [])
        + (if m.end.t > sub.end.t then [After(m, sub)] else [])
      else []
  {
    CutCons(m, [sub]);
    assert [sub][1..] == [];
  }

  /**
   * The inner loop of `remove` keeps order and multiplicity: cutting by a
   * concatenation cuts by each part and concatenates, so each subtrahend
   * contributes its own pieces, a repeated subtrahend included.
   */
  lemma {:induction false} CutAppend(m: Segment, a: SegmentList, b: SegmentList)
    ensures Cut(m, a + b) == Cut(m, a) + Cut(m, b)
  {
    if |a| == 0 {
      assert a + b == b;
    } else {
      var front :=
        if Overlaps(a[0], m) then
          (if m.start.t < a[0].start.t then [Before(m, a[0])] else [])
          + (if m.end.t > a[0].end.t then [After(m, a[0])] else [])
        else [];
      var ab := a + b;
      assert ab[0] == a[0] && ab[1..] == a[1..] + b;
      CutCons(m, ab);
      CutCons(m, a);
      CutAppend(m, a[1..], b);
      ConcatAssoc(front, Cut(m, a[1..]), Cut(m, b));
    }
  }

  /** One step of the outer loop of `remove`: the first minuend's leftovers come first. */
  lemma RemoveEachCons(l: SegmentList, subs: SegmentList)
    requires |l| > 0
    ensures RemoveEach(l, subs) ==
      Cut(l[0], subs) + (if Overlapped(l[0], subs) then [] else [l[0]]) + RemoveEach(l[1..], subs)
  {
  }

  /** A single minuend leaves its pieces, or itself when no subtrahend overlaps it. */
  lemma RemoveEachSingleton(m: Segment, subs: SegmentList)
    ensures RemoveEach([m], subs) == Cut(m, subs) + (if Overlapped(m, subs) then [] else [m])
  {
    RemoveEachCons([m], subs);
    assert [m][1..] == [];
  }

  /**
   * The outer loop of `remove` keeps order and multiplicity: subtracting
   * from a concatenation subtracts from each part and concatenates.
   */
  lemma {:induction false} RemoveEachAppend(a: SegmentList, b: SegmentList, subs: SegmentList)
    ensures RemoveEach(a + b, subs) == RemoveEach(a, subs) + RemoveEach(b, subs)
  {
    if |a| == 0 {
      assert a + b == b;
    } else {
      var front := Cut(a[0], subs) + (if Overlapped(a[0], subs) then [] else [a[0]]);
      var ab := a + b;
      assert ab[0] == a[0] && ab[1..] == a[1..] + b;
      RemoveEachCons(ab, subs);
      RemoveEachCons(a, subs);
      RemoveEachAppend(a[1..], b, subs);
      ConcatAssoc(front, RemoveEach(a[1..], subs), RemoveEach(b, subs));
    }
  }

  /**
   * For a list of positive-length segments no two of which overlap,
   * `A.remove(A)` leaves nothing behind.
   */
  lemma RemoveSelf(a: SegmentList)
    requires Disjoint(a) && AllProper(a)
    ensures Remove(a, a).remaining == []
  {
    RemoveSelfFrom(a, 0);
    assert a[0..] == a;
  }

  /**
   * `remove` is not set difference: with subtrahends (2, 3) and (5, 6),
   * the minuend (0, 10) yields (3, 10) for the first subtrahend, which still
   * overlaps the second.
   */
  lemma RemoveIsNotSetDifference(n: Vector3)
    ensures var m := Segment(IntersectionPoint(0.0, n, NullOwner), IntersectionPoint(10.0, n, NullOwner));
            var a := Segment(IntersectionPoint(2.0, n, NullOwner), IntersectionPoint(3.0, n, NullOwner));
            var b := Segment(IntersectionPoint(5.0, n, NullOwner), IntersectionPoint(6.0, n, NullOwner));
            exists s :: s in Remove([m], [a, b]).remaining && s.start.t == 3.0 && s.end.t == 10.0 && Overlaps(s, b)
  {
    var m := Segment(IntersectionPoint(0.0, n, NullOwner), IntersectionPoint(10.0, n, NullOwner));
    var a := Segment(IntersectionPoint(2.0, n, NullOwner), IntersectionPoint(3.0, n, NullOwner));
    var b := Segment(IntersectionPoint(5.0, n, NullOwner), IntersectionPoint(6.0, n, NullOwner));
    var f := FlipAll([a, b]);
    var s := After(m, f[0]);
    assert CutPiece(m, f[0], s);
    assert s in Cut(m, f);
    assert Leftover(m, f, s);
    assert s in Remove([m], [a, b]).remaining;
  }

  /**
   * Subtracting the same segment twice cuts the minuend twice: with
   * subtrahends (2, 3) and (2, 3), the minuend (0, 10) leaves (0, 2), (3, 10),
   * (0, 2), (3, 10), in that order.
   */
  lemma RemoveRepeatedSubtrahend(n: Vector3)
    ensures var m := Segment(IntersectionPoint(0.0, n, NullOwner), IntersectionPoint(10.0, n, NullOwner));
            var a := Segment(IntersectionPoint(2.0, n, NullOwner), IntersectionPoint(3.0, n, NullOwner));
            var r := Remove([m], [a, a]).remaining;
            && |r| == 4 && r[0] == r[2] && r[1] == r[3]
            && r[0].start.t == 0.0 && r[0].end.t == 2.0 && r[1].start.t == 3.0 && r[1].end.t == 10.0
  {
    var m := Segment(IntersectionPoint(0.0, n, NullOwner), IntersectionPoint(10.0, n, NullOwner));
    var a := Segment(IntersectionPoint(2.0, n, NullOwner), IntersectionPoint(3.0, n, NullOwner));
    var f := FlipAll([a, a]);
    var g := a.FlipNormals();
    assert f == [g] + [g];
    RemoveEachSingleton(m, f);
    CutAppend(m, [g], [g]);
    CutSingleton(m, g);
    assert Overlaps(g, m);
    assert Overlapped(m, f);
  }

  /** A single zero-length segment removed from itself survives unchanged. */
  lemma RemoveZeroLengthFromItself(z: Segment)
    requires z.start.t == z.end.t
    ensures Remove([z], [z]).remaining == [z]
  {
    ZeroLengthOverlaps(z, z.FlipNormals());
    OverlapsIgnoresNormals(z, z);
    assert !Overlapped(z, FlipAll([z]));
  }

  // ---------------------------------------------------------------------------
  // getMin
  // ---------------------------------------------------------------------------

  /** `IntersectionPoint min(DBL_MAX)`: the starting candidate, with no normal and no owner. */
  const Sentinel := IntersectionPoint(DblMax, Zero, NullOwner)

  /** Both boundary points of every segment, in list order. */
  function Boundaries(l: SegmentList): (r: seq<IntersectionPoint>)
    ensures |r| == 2 * |l|
    ensures forall i :: 0 <= i < |l| ==> r[2 * i] == l[i].start && r[2 * i + 1] == l[i].end
  {
    if |l| == 0 then
      []
    else
      [l[0].start, l[0].end] + Boundaries(l[1..])
  }

  /**
   * The loop of `getMin`: a segment's start replaces the candidate when it
   * lies beyond `offset` and before the candidate; only when it does not is
   * the segment's end tried the same way.
   */
  function ScanMin(l: SegmentList, offset: real, min: IntersectionPoint): (r: IntersectionPoint)
    ensures r.t <= min.t
    ensures r == min || (r in Boundaries(l) && r.t > offset)
  {
    if |l| == 0 then
      min
    else
      var s := l[0];
      var next :=
        if s.StartT() > offset && s.start.t < min.t then s.start
        else if s.EndT() > offset && s.end.t < min.t then s.end
        else min;
      assert Boundaries(l) == [s.start, s.end] + Boundaries(l[1..]);
      ScanMin(l[1..], offset, next)
  }

  /** The outcome of `getMin`: the returned flag and the point written to `poi`. */
  datatype Nearest = Nearest(found: bool, poi: IntersectionPoint)

  /** `getMin(offset, poi)`: `poi` is always written; the flag compares its `t` with `DBL_MAX`. */
  function GetMin(l: SegmentList, offset: real): (r: Nearest)
    ensures !r.found ==> r.poi.t == DblMax
  {
    var m := ScanMin(l, offset, Sentinel);
    Nearest(m.t != DblMax, m)
  }

  /** Over well-formed segments the loop keeps the earliest boundary beyond `offset`. */
  lemma {:induction false} ScanMinEarliest(l: SegmentList, offset: real, min: IntersectionPoint)
    requires AllWellFormed(l)
    ensures ScanMin(l, offset, min).t <= min.t
    ensures ScanMin(l, offset, min) == min
         || (ScanMin(l, offset, min) in Boundaries(l) && ScanMin(l, offset, min).t > offset)
    ensures forall b :: b in Boundaries(l) && b.t > offset ==> ScanMin(l, offset, min).t <= b.t
  {
    if |l| > 0 {
      var s := l[0];
      var next :=
        if s.StartT() > offset && s.start.t < min.t then s.start
        else if s.EndT() > offset && s.end.t < min.t then s.end
        else min;
      assert AllWellFormed(l[1..]) by {
        assert forall i :: 0 <= i < |l[1..]| ==> l[1..][i] == l[i + 1];
      }
      ScanMinEarliest(l[1..], offset, next);
      assert Boundaries(l) == [s.start, s.end] + Boundaries(l[1..]);
      assert WellFormed(s) by {
        assert s == l[0];
      }
    }
  }

  /**
   * When every segment has start <= end and every boundary is below
   * `DBL_MAX`, `getMin` reports a point exactly when some boundary lies
   * beyond `offset`, and the point it reports is the earliest such boundary.
   */
  lemma GetMinNearest(l: SegmentList, offset: real)
    requires AllWellFormed(l)
    requires forall b :: b in Boundaries(l) ==> b.t < DblMax
    ensures GetMin(l, offset).found <==> exists b :: b in Boundaries(l) && b.t > offset
    ensures GetMin(l, offset).found ==>
      GetMin(l, offset).poi in Boundaries(l) && GetMin(l, offset).poi.t > offset
    ensures forall b :: b in Boundaries(l) && b.t > offset ==> GetMin(l, offset).poi.t <= b.t
  {
    ScanMinEarliest(l, offset, Sentinel);
  }

  /** With segments (1, 3) and (5, 7), offset 0 finds t = 1 and offset 2 finds t = 3. */
  lemma GetMinExample(n: Vector3)
    ensures GetMin([Segment(IntersectionPoint(1.0, n, NullOwner), IntersectionPoint(3.0, n, NullOwner)),
                    Segment(IntersectionPoint(5.0, n, NullOwner), IntersectionPoint(7.0, n, NullOwner))], 0.0)
            == Nearest(true, IntersectionPoint(1.0, n, NullOwner))
    ensures GetMin([Segment(IntersectionPoint(1.0, n, NullOwner), IntersectionPoint(3.0, n, NullOwner)),
                    Segment(IntersectionPoint(5.0, n, NullOwner), IntersectionPoint(7.0, n, NullOwner))], 2.0)
            == Nearest(true, IntersectionPoint(3.0, n, NullOwner))
  {
    var a := Segment(IntersectionPoint(1.0, n, NullOwner), IntersectionPoint(3.0, n, NullOwner));
    var b := Segment(IntersectionPoint(5.0, n, NullOwner), IntersectionPoint(7.0, n, NullOwner));
    assert [a, b][1..] == [b];
    assert ScanMin([a, b], 0.0, Sentinel) == ScanMin([b], 0.0, a.start) == ScanMin([], 0.0, a.start);
    assert ScanMin([a, b], 2.0, Sentinel) == ScanMin([b], 2.0, a.end) == ScanMin([], 2.0, a.end);
  }

  /** A boundary lying exactly at `DBL_MAX` is indistinguishable from "nothing found". */
  lemma GetMinBoundaryAtDblMax(n: Vector3)
    ensures !GetMin([Segment(IntersectionPoint(0.0, n, NullOwner), IntersectionPoint(DblMax, n, NullOwner))], 0.0).found
  {
    var a := Segment(IntersectionPoint(0.0, n, NullOwner), IntersectionPoint(DblMax, n, NullOwner));
    assert [a][1..] == [];
    assert ScanMin([a], 0.0, Sentinel) == ScanMin([], 0.0, Sentinel);
  }

  /** On a reversed segment the end is never tried once the start is taken, so a nearer end is missed. */
  lemma GetMinNeedsWellFormed(n: Vector3)
    ensures GetMin([Segment(IntersectionPoint(5.0, n, NullOwner), IntersectionPoint(4.0, n, NullOwner))], 0.0).poi.t == 5.0
  {
    var a := Segment(IntersectionPoint(5.0, n, NullOwner), IntersectionPoint(4.0, n, NullOwner));
    assert [a][1..] == [];
    assert ScanMin([a], 0.0, Sentinel) == ScanMin([], 0.0, a.start);
  }

  // ---------------------------------------------------------------------------
  // getValidSegments and transformNormals
  // ---------------------------------------------------------------------------

  /** The segments of `l` whose start lies strictly beyond `offset`, in order. */
  function StartsAfter(l: SegmentList, offset: real): (r: SegmentList)
    ensures |r| <= |l|
    ensures forall s :: s in r <==> s in l && s.start.t > offset
    ensures forall s :: multiset(r)[s] == if s.start.t > offset then multiset(l)[s] else 0
  {
    if |l| == 0 then
      []
    else
      assert l == [l[0]] + l[1..];
      (if l[0].start.t > offset then [l[0]] else []) + StartsAfter(l[1..], offset)
  }

  /** One step of the filter: the first segment, if picked, comes first. */
  lemma StartsAfterCons(l: SegmentList, offset: real)
    requires |l| > 0
    ensures StartsAfter(l, offset) == (if l[0].start.t > offset then [l[0]] else []) + StartsAfter(l[1..], offset)
  {
  }

  /** Concatenation regroups freely. */
  lemma ConcatAssoc(p: SegmentList, q: SegmentList, r: SegmentList)
    ensures p + (q + r) == (p + q) + r
  {
  }

  /** The filter keeps list order: filtering a concatenation filters each part and concatenates. */
  lemma {:induction false} StartsAfterAppend(a: SegmentList, b: SegmentList, offset: real)
    ensures StartsAfter(a + b, offset) == StartsAfter(a, offset) + StartsAfter(b, offset)
  {
    if |a| == 0 {
      assert a + b == b;
      assert StartsAfter(a, offset) == [];
      assert StartsAfter(a, offset) + StartsAfter(b, offset) == StartsAfter(b, offset);
    } else {
      var front := if a[0].start.t > offset then [a[0]] else [];
      var ab := a + b;
      assert ab[0] == a[0] && ab[1..] == a[1..] + b;
      StartsAfterCons(ab, offset);
      StartsAfterCons(a, offset);
      StartsAfterAppend(a[1..], b, offset);
      ConcatAssoc(front, StartsAfter(a[1..], offset), StartsAfter(b, offset));
    }
  }

  /**
   * `getValidSegments(offset, segments)`: appends to `out` every segment
   * whose start lies beyond `offset`, then sorts the whole of `out`.
   */
  function GetValidSegments(l: SegmentList, offset: real, out: SegmentList): (r: SegmentList)
    ensures Sorted(r)
    ensures multiset(r) == multiset(out) + multiset(StartsAfter(l, offset))
    ensures forall s :: s in r <==> s in out || (s in l && s.start.t > offset)
    ensures AllWellFormed(l) && AllWellFormed(out) ==> AllWellFormed(r)
  {
    var picked := StartsAfter(l, offset);
    var r := Sort(out + picked);
    forall s
      ensures s in r <==> s in out || (s in l && s.start.t > offset)
    {
      calc {
        s in r;
        s in multiset(r);
        s in multiset(out + picked);
        s in out + picked;
      }
    }
    assert AllWellFormed(l) && AllWellFormed(out) ==> AllWellFormed(r) by {
      if AllWellFormed(l) && AllWellFormed(out) {
        forall i | 0 <= i < |r|
          ensures WellFormed(r[i])
        {
          assert r[i] in r;
          if r[i] in l {
            var j :| 0 <= j < |l| && l[j] == r[i];
          } else {
            var j :| 0 <= j < |out| && out[j] == r[i];
          }
        }
      }
    }
    r
  }

  /** A segment that straddles `offset` (start at or before it) is not picked up. */
  lemma StraddlingDropped(l: SegmentList, offset: real, s: Segment)
    requires s in l && s.start.t <= offset < s.end.t
    ensures s !in GetValidSegments(l, offset, [])
  {
  }

  /** `transformNormals(m)`: each endpoint normal becomes `m * normal`. */
  function TransformNormals(l: SegmentList, m: Matrix4): (r: SegmentList)
    ensures |r| == |l|
    ensures forall i :: 0 <= i < |l| ==>
      r[i].start.normal == TransformVector(m, l[i].start.normal) && r[i].end.normal == TransformVector(m, l[i].end.normal)
  {
    seq(|l|, i requires 0 <= i < |l| =>
      Segment(l[i].start.(normal := TransformVector(m, l[i].start.normal)),
              l[i].end.(normal := TransformVector(m, l[i].end.normal))))
  }

  /** Re-mapping normals leaves every parameter, every owner and the segment count as they were. */
  lemma TransformNormalsOnlyNormals(l: SegmentList, m: Matrix4)
    ensures |TransformNormals(l, m)| == |l|
    ensures forall i :: 0 <= i < |l| ==>
      TransformNormals(l, m)[i].start.t == l[i].start.t && TransformNormals(l, m)[i].end.t == l[i].end.t
      && TransformNormals(l, m)[i].start.owner == l[i].start.owner && TransformNormals(l, m)[i].end.owner == l[i].end.owner
    ensures AllWellFormed(l) ==> AllWellFormed(TransformNormals(l, m))
  {
  }
}

=== FILE: segmentsort.dfy ===
/**
 * Sorting a segment list by `Segment::operator<`.
 *
 * `std::list::sort` is a stable sort. The model sorts by stable insertion:
 * each element is placed after every element it is not strictly less than,
 * so elements with equal keys keep their relative order.
 */
module SegmentSort {
  import opened Segments

  /** Every segment is lexicographically no later than the ones after it. */
  predicate Sorted(l: seq<Segment>) {
    forall i, j :: 0 <= i < j < |l| ==> KeyLe(l[i], l[j])
  }

  /** Places `x` into a sorted list, after every element that is not strictly greater. */
  function InsertSorted(x: Segment, l: seq<Segment>): (r: seq<Segment>)
    requires Sorted(l)
    ensures Sorted(r)
    ensures multiset(r) == multiset(l) + multiset{x}
    ensures |r| == |l| + 1
  {
    if |l| == 0 then
      [x]
    else if x.Less(l[0]) then
      forall y | y in l
        ensures KeyLe(x, y)
      {
        var k :| 0 <= k < |l| && l[k] == y;
        assert k == 0 || KeyLe(l[0], l[k]);
      }
      ConsSorted(x, l);
      [x] + l
    else
      var rest := InsertSorted(x, l[1..]);
      assert l == [l[0]] + l[1..];
      forall y | y in rest
        ensures KeyLe(l[0], y)
      {
        assert y in multiset(rest);
        assert y == x || y in multiset(l[1..]);
      }
      ConsSorted(l[0], rest);
      [l[0]] + rest
  }

  /** A segment no later than every element of a sorted list may go in front of it. */
  lemma ConsSorted(a: Segment, l: seq<Segment>)
    requires Sorted(l)
    requires forall y :: y in l ==> KeyLe(a, y)
    ensures Sorted([a] + l)
  {
    var r := [a] + l;
    forall i, j | 0 <= i < j < |r|
      ensures KeyLe(r[i], r[j])
    {
      if i == 0 {
        assert r[j] == l[j - 1] && l[j - 1] in l;
      } else {
        assert r[i] == l[i - 1] && r[j] == l[j - 1];
      }
    }
  }

  /** `list::sort()`: a sorted permutation of `l`. */
  function Sort(l: seq<Segment>): (r: seq<Segment>)
    ensures Sorted(r)
    ensures multiset(r) == multiset(l)
    ensures |r| == |l|
  {
    if |l| == 0 then
      []
    else
      assert l == l[..|l| - 1] + [l[|l| - 1]];
      InsertSorted(l[|l| - 1], Sort(l[..|l| - 1]))
  }

  /** Inserting an element no smaller than everything already there appends it. */
  lemma {:induction false} InsertSortedAtEnd(x: Segment, l: seq<Segment>)
    requires Sorted(l)
    requires forall i :: 0 <= i < |l| ==> KeyLe(l[i], x)
    ensures InsertSorted(x, l) == l + [x]
  {
    if |l| > 0 {
      assert !x.Less(l[0]);
      InsertSortedAtEnd(x, l[1..]);
      assert l == [l[0]] + l[1..];
    }
  }

  /** Sorting a list that is already in order returns it unchanged, ties included. */
  lemma {:induction false} SortKeepsSorted(l: seq<Segment>)
    requires Sorted(l)
    ensures Sort(l) == l
  {
    if |l| > 0 {
      var init := l[..|l| - 1];
      assert Sorted(init);
      SortKeepsSorted(init);
      InsertSortedAtEnd(l[|l| - 1], init);
      assert init + [l[|l| - 1]] == l;
    }
  }

  // ---------------------------------------------------------------------------
  // Stability
  // ---------------------------------------------------------------------------

  /** The segments of `l` whose start is at `a` and whose end is at `b`, in their order in `l`. */
  function WithKey(l: seq<Segment>, a: real, b: real): (r: seq<Segment>)
    ensures forall y :: y in r ==> y in l && y.start.t == a && y.end.t == b
  {
    if |l| == 0 then
      []
    else
      (if l[0].start.t == a && l[0].end.t == b then [l[0]] else []) + WithKey(l[1..], a, b)
  }

  lemma {:induction false} WithKeyAppend(p: seq<Segment>, q: seq<Segment>, a: real, b: real)
    ensures WithKey(p + q, a, b) == WithKey(p, a, b) + WithKey(q, a, b)
  {
    if |p| == 0 {
      assert p + q == q;
    } else {
      assert (p + q)[0] == p[0] && (p + q)[1..] == p[1..] + q;
      WithKeyAppend(p[1..], q, a, b);
    }
  }

  /** A list with no segment of the key has an empty subsequence for it. */
  lemma {:induction false} WithKeyNone(l: seq<Segment>, a: real, b: real)
    requires forall i :: 0 <= i < |l| ==> !(l[i].start.t == a && l[i].end.t == b)
    ensures WithKey(l, a, b) == []
  {
    if |l| > 0 {
      WithKeyNone(l[1..], a, b);
    }
  }

  /**
   * Inserting `x` leaves the subsequence of every other key as it was and
   * puts `x` after every segment that shares its key.
   */
  lemma {:induction false} InsertSortedStable(x: Segment, l: seq<Segment>, a: real, b: real)
    requires Sorted(l)
    ensures WithKey(InsertSorted(x, l), a, b)
         == WithKey(l, a, b) + (if x.start.t == a && x.end.t == b then [x] else [])
  {
    var tag := if x.start.t == a && x.end.t == b then [x] else [];
    if |l| == 0 {
      assert WithKey([x], a, b) == tag + WithKey([], a, b);
    } else if x.Less(l[0]) {
      if x.start.t == a && x.end.t == b {
        forall i | 0 <= i < |l|
          ensures !(l[i].start.t == a && l[i].end.t == b)
        {
          assert i == 0 || KeyLe(l[0], l[i]);
        }
        WithKeyNone(l, a, b);
      }
      assert ([x] + l)[0] == x && ([x] + l)[1..] == l;
    } else {
      var rest := InsertSorted(x, l[1..]);
      InsertSortedStable(x, l[1..], a, b);
      assert ([l[0]] + rest)[0] == l[0] && ([l[0]] + rest)[1..] == rest;
    }
  }

  /**
   * `list::sort` is stable: for every key, the segments with that key appear
   * in the sorted list in the same order as in the input.
   */
  lemma {:induction false} SortStable(l: seq<Segment>, a: real, b: real)
    ensures WithKey(Sort(l), a, b) == WithKey(l, a, b)
  {
    if |l| > 0 {
      var init := l[..|l| - 1];
      var x := l[|l| - 1];
      var tag := if x.start.t == a && x.end.t == b then [x] else [];
      assert l == init + [x];
      assert Sort(l) == InsertSorted(x, Sort(init));
      assert WithKey([x], a, b) == tag by {
        assert [x][1..] == [];
      }
      calc {
        WithKey(Sort(l), a, b);
        { InsertSortedStable(x, Sort(init), a, b); }
        WithKey(Sort(init), a, b) + tag;
        { SortStable(init, a, b); }
        WithKey(init, a, b) + tag;
        { WithKeyAppend(init, [x], a, b); }
        WithKey(l, a, b);
      }
    }
  }
}

=== FILE: shading.dfy ===
/**
 * Shading at a hit point: the ambient term, recursive mirror reflection up
 * to a fixed depth, and the Phong contribution of every unshadowed light.
 */
module Shading {
  import opened Algebra
  import opened Options
  import opened Materials
  import opened SceneNodes

  /** Reflections nest at most this deep: `getColour` recurses only while its depth is below it. */
  const MaxDepth: int := 5

  /** The ray offset used for the mirror ray, so that it does not hit its own surface. */
  const MirrorOffset: real := 0.1

  /** The ray offset used for shadow rays. */
  const ShadowOffset: real := 0.001

  /** The unit direction from `poi` towards the light. */
  function LightDirection(lib: Library, poi: Point3, light: Light): Vector3 {
    lib.normalize(Between(light.position, poi))
  }

  /** The shadow test: anything at all along the ray towards the light, however far away. */
  function Shadowed(lib: Library, root: Node, poi: Point3, light: Light): (r: bool)
    ensures r <==> !NoneBeyond(NodeCandidates(lib, root, poi, LightDirection(lib, poi, light)), ShadowOffset)
  {
    Hits(lib, root, poi, LightDirection(lib, poi, light), ShadowOffset)
  }

  /**
   * One light's Phong term: the material coefficient times the light colour,
   * times the cosine at the surface, times the reciprocal of the quadratic
   * fall-off in the distance to the light.
   */
  function LightTerm(lib: Library, mat: Material, poi: Point3, view: Vector3, normal: Vector3, light: Light): (r: Colour)
    ensures light.colour == Black ==> r == Black
    ensures Dot(LightDirection(lib, poi, light), normal) == 0.0 ==> r == Black
  {
    var toLight := Between(light.position, poi);
    var r := lib.length(toLight);
    var dir := lib.normalize(toLight);
    var (f0, f1, f2) := light.falloff;
    Dim(lib.reciprocal(f0 + f1 * r + f2 * r * r),
        Dim(Dot(dir, normal), Mul(lib.coefficient(mat, normal, dir, view), light.colour)))
  }

  /** The light loop continuing from `acc`: a shadowed light is skipped, and so is a term with a negative channel. */
  function LightsFrom(lib: Library, root: Node, mat: Material, poi: Point3, view: Vector3, normal: Vector3,
                      lights: seq<Light>, acc: Colour): (r: Colour)
    ensures NonNegative(acc) ==> NonNegative(r)
  {
    if |lights| == 0 then
      acc
    else
      var light := lights[0];
      var term := LightTerm(lib, mat, poi, view, normal, light);
      var next := if !Shadowed(lib, root, poi, light) && NonNegative(term) then Add(acc, term) else acc;
      LightsFrom(lib, root, mat, poi, view, normal, lights[1..], next)
  }

  /** `getLightContribution(root, poi, view, normal, lights)`: the loop started from black. */
  function LightContribution(lib: Library, root: Node, mat: Material, poi: Point3, view: Vector3, normal: Vector3,
                             lights: seq<Light>): (r: Colour)
    ensures NonNegative(r)
  {
    LightsFrom(lib, root, mat, poi, view, normal, lights, Black)
  }

  /** What one light adds: its term when unshadowed with no negative channel, black otherwise. */
  function Contribution(lib: Library, root: Node, mat: Material, poi: Point3, view: Vector3, normal: Vector3,
                        light: Light): (r: Colour)
    ensures NonNegative(r)
    ensures Shadowed(lib, root, poi, light) ==> r == Black
    ensures !NonNegative(LightTerm(lib, mat, poi, view, normal, light)) ==> r == Black
    ensures !Shadowed(lib, root, poi, light) && NonNegative(LightTerm(lib, mat, poi, view, normal, light))
            ==> r == LightTerm(lib, mat, poi, view, normal, light)
  {
    var term := LightTerm(lib, mat, poi, view, normal, light);
    if !Shadowed(lib, root, poi, light) && NonNegative(term) then term else Black
  }

  /**
   * A black light, or one whose direction is perpendicular to the normal,
   * adds nothing to the light loop, whether or not it is shadowed.
   */
  lemma DarkLightAddsNothing(lib: Library, root: Node, mat: Material, poi: Point3, view: Vector3, normal: Vector3,
                             light: Light)
    requires light.colour == Black || Dot(LightDirection(lib, poi, light), normal) == 0.0
    ensures Contribution(lib, root, mat, poi, view, normal, light) == Black
  {
  }

  /** Colour addition regroups freely. */
  lemma AddRegroup(a: Colour, b: Colour, c: Colour)
    ensures Add(Add(a, b), c) == Add(a, Add(b, c))
    ensures Add(a, Black) == a && Add(Black, a) == a
  {
  }

  /** One step of the loop adds the first light's contribution to the accumulator. */
  lemma LightsFromStep(lib: Library, root: Node, mat: Material, poi: Point3, view: Vector3,
                       normal: Vector3, lights: seq<Light>, acc: Colour)
    requires |lights| > 0
    ensures LightsFrom(lib, root, mat, poi, view, normal, lights, acc)
         == LightsFrom(lib, root, mat, poi, view, normal, lights[1..],
                       Add(acc, Contribution(lib, root, mat, poi, view, normal, lights[0])))
  {
    AddRegroup(acc, Black, Black);
  }

  /** The loop adds each light's contribution to its accumulator. */
  lemma {:induction false} LightsFromAdds(lib: Library, root: Node, mat: Material, poi: Point3, view: Vector3,
                                          normal: Vector3, lights: seq<Light>, acc: Colour)
    ensures LightsFrom(lib, root, mat, poi, view, normal, lights, acc)
         == Add(acc, LightContribution(lib, root, mat, poi, view, normal, lights))
  {
    if |lights| == 0 {
      AddRegroup(acc, Black, Black);
    } else {
      var c := Contribution(lib, root, mat, poi, view, normal, lights[0]);
      var rest := LightContribution(lib, root, mat, poi, view, normal, lights[1..]);
      calc {
        LightsFrom(lib, root, mat, poi, view, normal, lights, acc);
        { LightsFromStep(lib, root, mat, poi, view, normal, lights, acc); }
        LightsFrom(lib, root, mat, poi, view, normal, lights[1..], Add(acc, c));
        { LightsFromAdds(lib, root, mat, poi, view, normal, lights[1..], Add(acc, c)); }
        Add(Add(acc, c), rest);
        { AddRegroup(acc, c, rest); AddRegroup(c, Black, Black); }
        Add(acc, Add(Add(Black, c), rest));
        { LightsFromAdds(lib, root, mat, poi, view, normal, lights[1..], Add(Black, c)); }
        Add(acc, LightsFrom(lib, root, mat, poi, view, normal, lights[1..], Add(Black, c)));
        { LightsFromStep(lib, root, mat, poi, view, normal, lights, Black); }
        Add(acc, LightContribution(lib, root, mat, poi, view, normal, lights));
      }
    }
  }

  /** The contribution of a list of lights is the sum of the contributions of its parts. */
  lemma {:induction false} LightContributionSplit(lib: Library, root: Node, mat: Material, poi: Point3, view: Vector3,
                                                  normal: Vector3, a: seq<Light>, b: seq<Light>)
    ensures LightContribution(lib, root, mat, poi, view, normal, a + b)
         == Add(LightContribution(lib, root, mat, poi, view, normal, a),
                LightContribution(lib, root, mat, poi, view, normal, b))
  {
    if |a| == 0 {
      assert a + b == b;
      AddRegroup(Black, LightContribution(lib, root, mat, poi, view, normal, b), Black);
    } else {
      var c := Contribution(lib, root, mat, poi, view, normal, a[0]);
      assert (a + b)[0] == a[0] && (a + b)[1..] == a[1..] + b;
      LightsFromStep(lib, root, mat, poi, view, normal, a + b, Black);
      LightsFromStep(lib, root, mat, poi, view, normal, a, Black);
      LightContributionSplit(lib, root, mat, poi, view, normal, a[1..], b);
      LightsFromAdds(lib, root, mat, poi, view, normal, a[1..] + b, Add(Black, c));
      LightsFromAdds(lib, root, mat, poi, view, normal, a[1..], Add(Black, c));
      AddRegroup(Add(Black, c), LightContribution(lib, root, mat, poi, view, normal, a[1..]),
                 LightContribution(lib, root, mat, poi, view, normal, b));
    }
  }

  /** When every light is blocked, the lights add nothing. */
  lemma {:induction false} AllShadowedIsBlack(lib: Library, root: Node, mat: Material, poi: Point3, view: Vector3,
                                              normal: Vector3, lights: seq<Light>)
    requires forall k :: 0 <= k < |lights| ==> Shadowed(lib, root, poi, lights[k])
    ensures LightContribution(lib, root, mat, poi, view, normal, lights) == Black
  {
    if |lights| > 0 {
      AllShadowedIsBlack(lib, root, mat, poi, view, normal, lights[1..]);
      LightsFromAdds(lib, root, mat, poi, view, normal, lights[1..], Black);
    }
  }

  /**
   * The shadow ray counts a candidate at any distance: an occluder beyond
   * the light still blocks it, whatever the distance to the light is.
   */
  lemma ShadowIgnoresLightDistance(lib: Library, root: Node, poi: Point3, light: Light, k: nat)
    requires k < |NodeCandidates(lib, root, poi, LightDirection(lib, poi, light))|
    requires ShadowOffset < NodeCandidates(lib, root, poi, LightDirection(lib, poi, light))[k].t < DblMax
    ensures Shadowed(lib, root, poi, light)
    ensures forall mat, view, normal ::
              LightContribution(lib, root, mat, poi, view, normal, [light]) == Black
  {
    forall mat, view, normal
      ensures LightContribution(lib, root, mat, poi, view, normal, [light]) == Black
    {
      AllShadowedIsBlack(lib, root, mat, poi, view, normal, [light]);
    }
  }

  /** The mirror direction: the view direction reflected about the normal. */
  function MirrorDirection(view: Vector3, norm: Vector3): Vector3 {
    Plus(Negate(view), Scale(2.0 * Dot(view, norm), norm))
  }

  /**
   * `GeometryNode::getColour(root, eye, poi, normal, ambient, lights, depth)`
   * for a geometry node with material `mat`: the ambient term, plus the
   * reflection weight times the colour seen along the mirror ray (only
   * when the weight is non-zero and the depth is below the limit), plus
   * one minus the weight times the light contribution.
   *
   * When no mirror ray is traced, and also when the mirror ray meets
   * nothing, the colour is the ambient term plus the weighted light
   * contribution: the weight `1 - reflection` applies even at the depth
   * limit, so the limit does not make the colour black.
   */
  function GetColour(lib: Library, root: Node, mat: Material, eye: Point3, poi: Point3, normal: Vector3,
                     ambient: Colour, lights: seq<Light>, depth: int): (r: Colour)
    ensures var norm := lib.normalize(normal);
            var view := lib.normalize(Between(eye, poi));
            mat.reflection == 0.0 || depth >= MaxDepth
            || NoneBeyond(NodeCandidates(lib, root, poi, MirrorDirection(view, norm)), MirrorOffset)
            ==> r == Add(AmbientTerm(mat, ambient),
                         Dim(1.0 - mat.reflection, LightContribution(lib, root, mat, poi, view, norm, lights)))
    ensures var norm := lib.normalize(normal);
            var view := lib.normalize(Between(eye, poi));
            mat.reflection != 0.0 && depth < MaxDepth
            ==> r == Add(Add(AmbientTerm(mat, ambient),
                             Dim(mat.reflection, Reflected(lib, root, poi, MirrorDirection(view, norm), ambient, lights, depth))),
                         Dim(1.0 - mat.reflection, LightContribution(lib, root, mat, poi, view, norm, lights)))
    decreases if depth < MaxDepth then MaxDepth - depth else 0, 1
  {
    var norm := lib.normalize(normal);
    var view := lib.normalize(Between(eye, poi));
    var refl := mat.reflection;
    var base := AmbientTerm(mat, ambient);
    var mirrored :=
      if refl != 0.0 && depth < MaxDepth then
        Add(base, Dim(refl, Reflected(lib, root, poi, MirrorDirection(view, norm), ambient, lights, depth)))
      else
        base;
    assert refl != 0.0 && depth < MaxDepth
           && NoneBeyond(NodeCandidates(lib, root, poi, MirrorDirection(view, norm)), MirrorOffset)
           ==> mirrored == base;
    Add(mirrored, Dim(1.0 - refl, LightContribution(lib, root, mat, poi, view, norm, lights)))
  }

  /**
   * The reflection colour: what the mirror ray from `poi` sees, shaded one
   * level deeper with the material of the node it hits, or black when no
   * candidate lies beyond the mirror offset.
   */
  function Reflected(lib: Library, root: Node, poi: Point3, dir: Vector3, ambient: Colour, lights: seq<Light>,
                     depth: int): (r: Colour)
    requires depth < MaxDepth
    ensures NoneBeyond(NodeCandidates(lib, root, poi, dir), MirrorOffset) ==> r == Black
    ensures var obj := Intersect(lib, root, poi, dir, MirrorOffset, Origin, Zero);
            obj.hit.Some?
            ==> r == GetColour(lib, root, obj.hit.value.kind.material, poi, obj.poi, obj.normal, ambient, lights, depth + 1)
    decreases MaxDepth - depth, 0
  {
    var obj := Intersect(lib, root, poi, dir, MirrorOffset, Origin, Zero);
    IntersectFound(lib, root, poi, dir, MirrorOffset, Origin, Zero);
    if obj.hit.Some? then
      GetColour(lib, root, obj.hit.value.kind.material, poi, obj.poi, obj.normal, ambient, lights, depth + 1)
    else
      Black
  }

  /** A material whose colours and weights cannot make light negative. */
  predicate Physical(m: Material) {
    NonNegative(m.kd) && 0.0 <= m.reflection <= 1.0
  }

  /** Every geometry node at or below `n` has a physical material. */
  predicate AllPhysical(n: Node)
    decreases n
  {
    (n.kind.Geometry? ==> Physical(n.kind.material))
    && forall k :: 0 <= k < |n.children| ==> AllPhysical(n.children[k])
  }

  lemma {:induction false} ReachesPhysical(n: Node, m: Node)
    requires AllPhysical(n) && Reaches(n, m)
    ensures AllPhysical(m)
    decreases n
  {
    if n != m {
      var k :| 0 <= k < |n.children| && Reaches(n.children[k], m);
      ReachesPhysical(n.children[k], m);
    }
  }

  /**
   * With non-negative ambient light and physical materials throughout the
   * scene, shading never produces a negative channel, at any depth of
   * reflection.
   */
  lemma {:induction false} GetColourNonNegative(lib: Library, root: Node, mat: Material, eye: Point3, poi: Point3,
                                                normal: Vector3, ambient: Colour, lights: seq<Light>, depth: int)
    requires NonNegative(ambient) && Physical(mat) && AllPhysical(root)
    ensures NonNegative(GetColour(lib, root, mat, eye, poi, normal, ambient, lights, depth))
    decreases if depth < MaxDepth then MaxDepth - depth else 0, 1
  {
    var norm := lib.normalize(normal);
    var view := lib.normalize(Between(eye, poi));
    var refl := mat.reflection;
    var base := AmbientTerm(mat, ambient);
    var light := LightContribution(lib, root, mat, poi, view, norm, lights);
    MulNonNegative(ambient, mat.kd);
    DimNonNegative(1.0 - refl, light);
    if refl != 0.0 && depth < MaxDepth {
      var seen := Reflected(lib, root, poi, MirrorDirection(view, norm), ambient, lights, depth);
      ReflectedNonNegative(lib, root, poi, MirrorDirection(view, norm), ambient, lights, depth);
      DimNonNegative(refl, seen);
      AddNonNegative(base, Dim(refl, seen));
      AddNonNegative(Add(base, Dim(refl, seen)), Dim(1.0 - refl, light));
    } else {
      AddNonNegative(base, Dim(1.0 - refl, light));
    }
  }

  /**
   * The colour seen along a mirror ray in a physical scene is non-negative.
   * The depth bound is `depth < MaxDepth` with the constant's value written
   * out, which keeps the solver from unfolding the reflection chain.
   */
  lemma {:induction false} ReflectedNonNegative(lib: Library, root: Node, poi: Point3, dir: Vector3, ambient: Colour,
                                                lights: seq<Light>, depth: int)
    requires depth < 5
    requires NonNegative(ambient) && AllPhysical(root)
    ensures NonNegative(Reflected(lib, root, poi, dir, ambient, lights, depth))
    decreases MaxDepth - depth, 0
  {
    var obj := Intersect(lib, root, poi, dir, MirrorOffset, Origin, Zero);
    if obj.hit.Some? {
      ReflectedHit(lib, root, poi, dir, ambient, lights, depth);
      HitIsPhysical(lib, root, poi, dir, MirrorOffset, Origin, Zero);
      GetColourNonNegative(lib, root, obj.hit.value.kind.material, poi, obj.poi, obj.normal, ambient, lights, depth + 1);
    } else {
      ReflectedMiss(lib, root, poi, dir, ambient, lights, depth);
    }
  }

  /** In a physical scene, the node a hit reports has a physical material. */
  lemma HitIsPhysical(lib: Library, root: Node, eye: Point3, ray: Vector3, offset: real, poi: Point3, normal: Vector3)
    requires AllPhysical(root)
    requires Intersect(lib, root, eye, ray, offset, poi, normal).hit.Some?
    ensures Physical(Intersect(lib, root, eye, ray, offset, poi, normal).hit.value.kind.material)
  {
    ReachesPhysical(root, Intersect(lib, root, eye, ray, offset, poi, normal).hit.value);
  }

  /** A mirror ray that hits sees the hit node's colour one level deeper. */
  lemma ReflectedHit(lib: Library, root: Node, poi: Point3, dir: Vector3, ambient: Colour, lights: seq<Light>,
                     depth: int)
    requires depth < MaxDepth
    requires Intersect(lib, root, poi, dir, MirrorOffset, Origin, Zero).hit.Some?
    ensures var obj := Intersect(lib, root, poi, dir, MirrorOffset, Origin, Zero);
            Reflected(lib, root, poi, dir, ambient, lights, depth)
            == GetColour(lib, root, obj.hit.value.kind.material, poi, obj.poi, obj.normal, ambient, lights, depth + 1)
  {
  }

  /** A mirror ray that the five-argument `intersect` reports as a miss sees black. */
  lemma ReflectedMiss(lib: Library, root: Node, poi: Point3, dir: Vector3, ambient: Colour, lights: seq<Light>,
                      depth: int)
    requires depth < MaxDepth
    requires Intersect(lib, root, poi, dir, MirrorOffset, Origin, Zero).hit.None?
    ensures Reflected(lib, root, poi, dir, ambient, lights, depth) == Black
  {
    IntersectFound(lib, root, poi, dir, MirrorOffset, Origin, Zero);
    assert NoneBeyond(NodeCandidates(lib, root, poi, dir), MirrorOffset);
  }

  lemma ProductNonNegative(x: real, y: real)
    requires 0.0 <= x && 0.0 <= y
    ensures 0.0 <= x * y
  {
  }

  lemma DimNonNegative(k: real, c: Colour)
    requires 0.0 <= k && NonNegative(c)
    ensures NonNegative(Dim(k, c))
  {
    ProductNonNegative(k, c.r);
    ProductNonNegative(k, c.g);
    ProductNonNegative(k, c.b);
  }

  lemma MulNonNegative(a: Colour, b: Colour)
    requires NonNegative(a) && NonNegative(b)
    ensures NonNegative(Mul(a, b))
  {
    ProductNonNegative(a.r, b.r);
    ProductNonNegative(a.g, b.g);
    ProductNonNegative(a.b, b.b);
  }

  lemma AddNonNegative(a: Colour, b: Colour)
    requires NonNegative(a) && NonNegative(b)
    ensures NonNegative(Add(a, b))
  {
  }

  /** The outputs of the colour overload of `intersect`: whether anything was hit, and the colour. */
  datatype Shade = Shade(hit: bool, colour: Colour)

  /**
   * `intersect(eye, ray, ambient, lights, offset, c)`: on a hit, `c` becomes
   * the hit node's colour at the hit point, shaded from depth 0 with this
   * node as the scene root; on a miss `c` is left as it was.
   */
  function IntersectColour(lib: Library, root: Node, eye: Point3, ray: Vector3, ambient: Colour, lights: seq<Light>,
                           offset: real, c: Colour): (r: Shade)
    ensures !r.hit ==> r.colour == c
    ensures r.hit == Hits(lib, root, eye, ray, offset)
    ensures var obj := Intersect(lib, root, eye, ray, offset, Origin, Zero);
            obj.hit.Some?
            ==> r.hit && r.colour == GetColour(lib, root, obj.hit.value.kind.material, eye, obj.poi, obj.normal, ambient, lights, 0)
  {
    var obj := Intersect(lib, root, eye, ray, offset, Origin, Zero);
    IntersectFound(lib, root, eye, ray, offset, Origin, Zero);
    if obj.hit.Some? then
      Shade(true, GetColour(lib, root, obj.hit.value.kind.material, eye, obj.poi, obj.normal, ambient, lights, 0))
    else
      Shade(false, c)
  }

  /** In a physical scene under non-negative ambient light, a hit is never shaded with a negative channel. */
  lemma IntersectColourNonNegative(lib: Library, root: Node, eye: Point3, ray: Vector3, ambient: Colour,
                                   lights: seq<Light>, offset: real, c: Colour)
    requires NonNegative(ambient) && AllPhysical(root)
    ensures var r := IntersectColour(lib, root, eye, ray, ambient, lights, offset, c);
            r.hit ==> NonNegative(r.colour)
  {
    var obj := Intersect(lib, root, eye, ray, offset, Origin, Zero);
    if obj.hit.Some? {
      ReachesPhysical(root, obj.hit.value);
      GetColourNonNegative(lib, root, obj.hit.value.kind.material, eye, obj.poi, obj.normal, ambient, lights, 0);
    }
  }
}
